=== FILE: README.md ===
# Ray-casting engine model

A Dafny model of the ray-casting engine of `raycast.js`, a small p5.js demo that
draws a pseudo-3D view of an 11 × 15 tile map. Each frame, the engine does four things:

1. It moves the player and rejects any move into a wall.
2. It casts a fan of 96 rays across a 60° field of view. Each ray runs two
   grid-line searches, one over the horizontal grid lines and one over the
   vertical ones, and keeps the nearer wall hit.
3. It corrects every hit distance for fish-eye distortion.
4. It turns each ray into a vertical wall strip with a height and a shade.

JavaScript doubles are modelled as Dafny `real`. `Math.PI` and
`Number.MAX_VALUE` are given by their exact double values. `Math.tan`,
`Math.cos`, `Math.sin` and `Math.sqrt` come in through a `Trig` record of
functions. Nothing is assumed about them except that `sqrt` returns the
non-negative square root wherever a distance is computed, and, for the
projection, that the tangent of half the field of view is positive. The
lemmas that place a hit on the ray's own line (`…StepFollowsRay`,
`…HitOnRay`, `Enclosure.CastFromOpenPointHits`) also take `Rays.TanAgrees`
as a hypothesis. It says the tangent has the sign the ray's facing quadrant
gives it.

Modules, in dependency order:

- `Config`: the constants.
- `Geometry`: `normalizeAngle`, `distanceBetweenPoints` and the `Trig` record.
- `GridWorld`: the map and `hasWallAt`.
- `Players`: `Player.update` and repeated ticks.
- `Rays`: the `Ray` constructor and the sign-corrected steps.
- `Traversal`: the two grid-line searches, built on one walk.
- `RayCaster`: `Ray.cast` and its nearest-hit selection.
- `RaySet`: `castAllRays`.
- `Projection`: the strip arithmetic of `render3DProjectedWalls`.
- `Frame`: one `update` followed by the projection.
- `Enclosure`: on the shipped map, every cast from an open point, with a
  tangent of the sign its quadrant gives, finds a wall.
- `FirstFrame`: the centre ray of the initial view, which faces straight down
  with a tangent of the wrong sign for its quadrant, still finds the bottom
  wall row.

Some small functions have no row of their own, because the rows of their
callers state what they compute:

- `RayCaster.HitDistance` (raycast.js:182-188): the distance of one search.
- `Projection.CorrectedDistance` (raycast.js:267): the fish-eye correction.
- `Players.TurnedAngle`, `Players.CandidateX` and `Players.CandidateY`
  (raycast.js:68-72): the turn and the move target.
- `Players.Run` (raycast.js:67-79, once per frame): repeated `update`.
- `Traversal.HorizontalFirstY` and `Traversal.HorizontalFirstX`
  (raycast.js:115-119): the first horizontal intercept.
- `Traversal.VerticalFirstX` and `Traversal.VerticalFirstY`
  (raycast.js:151-155): the first vertical intercept.
- `Traversal.HorizontalProbe` and `Traversal.VerticalProbe` (raycast.js:134,
  170): the offset of the probed point from a touch point.
- `RayCaster.HitX` and `RayCaster.HitY` (raycast.js:111-112, 147-148): a
  search's hit coordinates, 0 when it found nothing.
- `Enclosure.YWalkExit` (raycast.js:133-143): restates `YWalkMissExit` as a
  horizontal exit.
- `Enclosure.ExitOrder` (raycast.js:133, 169): where the two exits lie
  relative to each other, given the edges they left through.
- `Traversal.OnLineStep` (raycast.js:140-141, 176-177): one step along the
  line's slope stays on the line.
- `RayCaster.HorizontalHit` and `RayCaster.VerticalHit` (raycast.js:119, 125,
  155, 161): the two searches with the ray's own tangent.
- `RayCaster.ProbedX` and `RayCaster.ProbedY` (raycast.js:134, 170): the point
  a search probes for a wall.
- `RayCaster.WellClassified` (raycast.js:98-102): a ray's facing flags are
  those the constructor derives from its angle.
- `FirstFrame.TileSeven`, `FirstFrame.CentreSlope`, `FirstFrame.DownLeftStep`
  and `FirstFrame.CentreFirstIntercept` (raycast.js:36-37, 115-127): the tile
  and intercept arithmetic of the initial centre ray.
- `FirstFrame.WalkPasses`, `FirstFrame.WalkPassesTwo`,
  `FirstFrame.WalkHitsHere`, `FirstFrame.WalkStartsOutside`,
  `FirstFrame.DownWalkFifth` and `FirstFrame.CentreHorizontalStart`
  (raycast.js:115-143, 169): single steps of a walk, and the horizontal search
  of that ray written as a walk.

## Model

| member | source | states |
|---|---|---|
| `Geometry.RemTurn` | raycast.js:253 | JavaScript's `%` by a full turn keeps the sign of the angle, stays below one turn in magnitude, and removes a whole number of turns |
| `Geometry.NormalizeAngle` | raycast.js:252-258 | the result lies in [0, 2π) and differs from the input by a whole number of turns |
| `Geometry.NormalizeAngleCanonical` | raycast.js:252-258 | normalisation returns the unique angle of [0, 2π) with the input's direction |
| `Geometry.NormalizeAngleIdempotent` | raycast.js:252-258 | normalising an already normalised angle changes nothing |
| `Geometry.NormalizeAngleTurnInvariant` | raycast.js:252-258 | angles a whole number of turns apart normalise to the same value |
| `Geometry.SameTurnUnique` | raycast.js:252-258 | two angles of [0, 2π) with the same direction are equal |
| `Geometry.Distance` | raycast.js:260-262 | the distance is non-negative and its square is the sum of the squared coordinate differences |
| `Geometry.DistanceSymmetricAndZero` | raycast.js:260-262 | the distance is symmetric in its two points and zero from a point to itself |
| `GridWorld.TileIndex` | raycast.js:36-37 | the tile index of a coordinate is the tile whose span [i·64, i·64 + 64) contains it |
| `GridWorld.ReadCell` | raycast.js:38 | a grid read throws exactly when the row is missing, and yields a value exactly when both row and column exist |
| `GridWorld.HasWallAtAsWritten` | raycast.js:32-39 | points outside the window are walls; on a well-formed grid the lookup fails exactly on the bottom edge of the window |
| `GridWorld.HasWallAt` | raycast.js:32-39 | points outside the window are walls; strictly inside the far edges, a point is a wall exactly when its cell is non-zero |
| `GridWorld.AsWrittenAgreesWhereDefined` | raycast.js:32-39 | wherever the program's lookup returns, the model's lookup gives the same answer; where it throws, the model reads a wall |
| `GridWorld.AsWrittenThrowsOnBottomEdge` | raycast.js:36-38 | the program's lookup throws at the in-window point (100, 704) of the shipped map |
| `GridWorld.FarEdgesAreWall` | raycast.js:33-38 | on the right and bottom edges of the window the lookup reads a wall; on the right edge the program agrees, because `undefined != 0` |
| `GridWorld.SameTileSameWall` | raycast.js:36-38 | two in-window points of the same tile get the same answer |
| `GridWorld.OpenIff` | raycast.js:32-39 | a point is open exactly when it lies in [0, W) × [0, H) and its cell holds zero |
| `GridWorld.MapOpenPointsAreInterior` | raycast.js:17-29 | the shipped map is well formed, and each of its open points lies at least one tile inside the window |
| `Players.InitialPlayer` | raycast.js:56-65 | the starting player stands on an open cell of the shipped map, with no turn or walk intent |
| `Players.Update` | raycast.js:67-79 | the turn always applies; the move is taken exactly when its target is open, and otherwise dropped whole; speeds and intents are kept; an open position stays open |
| `Players.RunStaysOpen` | raycast.js:67-79 | over any sequence of ticks and intents, a player that starts on an open point never enters a wall |
| `Players.InitialPlayerStaysInside` | raycast.js:56-79 | the program's own player, on the shipped map, stays at least one tile inside the window forever |
| `Rays.Classify` | raycast.js:98-102 | exactly one of facing down/up and exactly one of facing right/left holds; for a normalised angle, up means 0 or [π, 2π) and left means [π/2, 3π/2] |
| `Rays.NewRay` | raycast.js:91-103 | a new ray has a normalised angle with the same direction as its argument, flags classified from that angle, and an empty hit |
| `Rays.CorrectSign` | raycast.js:125-127 | the two-stage sign fix keeps the magnitude, gives the step the sign of the facing direction, and keeps a step that already agrees |
| `Rays.HorizontalStep` | raycast.js:122-127 | the y step is −64 exactly when facing up and +64 exactly when facing down; the x step is ±64/tan, with the sign of the facing direction |
| `Rays.VerticalStep` | raycast.js:158-163 | the x step is −64 exactly when facing left and +64 exactly when facing right; the y step is ±64·tan, with the sign of the facing direction |
| `Rays.HorizontalStepFollowsRay` | raycast.js:119-127 | when the tangent has the sign of the facing quadrant, the corrected horizontal step runs along the ray's line |
| `Rays.VerticalStepFollowsRay` | raycast.js:155-163 | the same holds for the corrected vertical step |
| `Traversal.Walk` | raycast.js:133-143 | a walk terminates; a reported hit is in the window with a wall in its probed cell, lies ahead of the start, and stays on the grid line the walk follows |
| `Traversal.WalkSteps` | raycast.js:133-143 | the number of steps a walk takes is bounded by the grid lines left ahead of it |
| `Traversal.WalkIsFirstStop` | raycast.js:133-143 | the walk stops at the first touch point that is outside the window or probes a wall, passes every earlier one, and reports the stopping point exactly when it is inside the window |
| `Traversal.WalkStopsAtLast` | raycast.js:133-143 | the touch point after the walk's last step stops the walk |
| `Traversal.WalkPassesEarlier` | raycast.js:133-143 | no touch point before that one stops the walk |
| `Traversal.WalkReportsLast` | raycast.js:133-143 | the walk's result is the stopping touch point when it is in the window, and not-found otherwise |
| `Traversal.WalkStaysOnLine` | raycast.js:140-141 | if the start point and the step lie on a line through the player, so does the reported hit |
| `Traversal.WalkStepsBound` | raycast.js:133 | a walk along y takes at most 12 steps and a walk along x at most 16 |
| `Traversal.HorizontalSearch` | raycast.js:109-143 | a zero tangent finds nothing; a hit lies in the window on a horizontal grid line, ahead of the player vertically, with a wall in the cell beyond the line (the cell above when facing up) |
| `Traversal.VerticalSearch` | raycast.js:145-179 | a hit lies in the window on a vertical grid line, ahead of the player horizontally, with a wall in the cell beyond the line (the cell to the left when facing left) |
| `Traversal.HorizontalSearchIsWalk` | raycast.js:114-143 | an unfolding lemma: with a non-zero tangent, the horizontal search is the walk from the first horizontal intercept with the corrected horizontal step |
| `Traversal.VerticalSearchIsWalk` | raycast.js:150-179 | an unfolding lemma: the vertical search is the walk from the first vertical intercept with the corrected vertical step |
| `Traversal.HorizontalHitOnRay` | raycast.js:115-143 | when the tangent agrees with the facing quadrant, a horizontal hit lies on the ray's line through the player |
| `Traversal.VerticalHitOnRay` | raycast.js:151-179 | likewise for a vertical hit |
| `Traversal.VerticalSearchReachesBottomEdge` | raycast.js:165-170 | from an open point of the shipped map, a ray's first vertical touch point can be on the bottom edge, where the program's lookup throws |
| `RayCaster.Select` | raycast.js:190-201 | the vertical hit is chosen exactly when it is strictly nearer; the chosen distance is the minimum of the two; a tie keeps the horizontal hit; coordinates come from the winner |
| `RayCaster.Cast` | raycast.js:105-202 | the cast keeps angle and flags; it is vertical exactly when the vertical distance is smaller, its distance is the minimum, and its hit point is the winning search's; with no hit it reports `MAX_VALUE` at (0, 0) as horizontal |
| `RayCaster.CastRay` | raycast.js:91-105 | a constructed and cast ray has a normalised angle with the direction it was given, and flags classified from it |
| `RayCaster.CastReportsWall` | raycast.js:182-201 | a cast distance below `MAX_VALUE` is the Euclidean distance to an in-window point whose probed cell is a wall |
| `RayCaster.TieGoesHorizontal` | raycast.js:191-200 | on an exact distance tie the horizontal hit is reported |
| `RayCaster.DistanceInWindow` | raycast.js:182-188 | between two points of the window the distance is at most the diagonal and below `MAX_VALUE` |
| `RayCaster.FoundBeatsMissed` | raycast.js:182-201 | from inside the window, a search that found a wall always wins over one that did not, and any hit gives a distance below `MAX_VALUE` |
| `RayCaster.WithinDiagonal` | raycast.js:260-262 | two points of the window are at most 1191 apart |
| `RayCaster.CastWithinDiagonal` | raycast.js:182-201 | from inside the window, a cast that hits a wall reports a distance of at most 1191 |
| `RaySet.CastAllRays` | raycast.js:238-250 | the fan has exactly 96 rays, and ray i is the ray cast at angle rotation − 30° + i·(60°/96), independently of the others |
| `RaySet.FanTurnInvariant` | raycast.js:238-258 | a player turned by a whole number of turns sees exactly the same rays |
| `RaySet.FanShift` | raycast.js:243-249 | turning by one angle step shifts the fan by one ray |
| `RaySet.FanSpansFieldOfView` | raycast.js:239-248 | the fan starts half a field of view left of the facing angle, one step past its last ray lies half a field of view right of it, and its angles strictly increase |
| `Projection.PlaneDistance` | raycast.js:270 | the projection plane is at a positive distance d with d·tan(FOV/2) = W/2 |
| `Projection.WallHeight` | raycast.js:273 | the height is unbounded exactly at corrected distance zero; otherwise height × corrected distance = 64 × plane distance |
| `Projection.Shade` | raycast.js:278 | the shade is 255 exactly for vertical hits and 200 otherwise |
| `Projection.StripTop` | raycast.js:283 | a strip's span is centred on the horizon line at half the window height |
| `Projection.TopOf` | raycast.js:273-283 | a finite strip's top is placed so that the strip is centred on the horizon; an unbounded strip has an unbounded top |
| `Projection.ProjectRay` | raycast.js:264-283 | strip i starts at x = 10·i, its height times the fish-eye-corrected distance is constant, it is centred on the horizon, and its shade marks vertical hits |
| `Projection.ProjectAll` | raycast.js:264-285 | one strip per ray, in ray order |
| `Projection.NearerIsTaller` | raycast.js:267-273 | of two walls in front of the player, the nearer one is drawn at least as tall |
| `Projection.StripsTileWindow` | raycast.js:265-283 | the strips of a full fan cover the window width from 0 to 960 without gap or overlap |
| `Enclosure.MapIsWalled` | raycast.js:17-29 | every open point of the shipped map lies at least one tile inside the window |
| `Enclosure.HorizontalExitSide` | raycast.js:115-143 | a horizontal search from inside the window that leaves it level with the window exits through the side edge the ray faces |
| `Enclosure.VerticalExitSide` | raycast.js:151-179 | a vertical search from inside the window that leaves it within its width exits through the top or bottom edge the ray faces |
| `Enclosure.ExitsDisagree` | raycast.js:109-179 | one line through a point of the window cannot leave it ahead of the player both through a side edge and through the top or bottom edge |
| `Enclosure.YWalkStopsLevel` | raycast.js:133-143 | on a walled grid, a walk along y from an interior grid line stops level with the window |
| `Enclosure.XWalkStopsLevel` | raycast.js:169-179 | on a walled grid, a walk along x from an interior grid line stops within the window's width |
| `Enclosure.YWalkMissExit` | raycast.js:133-143 | a walk along y on a walled grid that finds nothing stops on its line, level with the window, outside it, and no nearer than its start |
| `Enclosure.XWalkMissExit` | raycast.js:169-179 | the same for a walk along x, within the window's width |
| `Enclosure.HorizontalStart` | raycast.js:114-119 | from an interior point, the first horizontal intercept lies on the ray's line, between the first and last interior grid lines, not behind the player |
| `Enclosure.VerticalStart` | raycast.js:150-155 | the same for the first vertical intercept |
| `Enclosure.HorizontalMissExits` | raycast.js:109-143 | a horizontal search from an open point of a walled grid that finds nothing stops at a horizontal exit |
| `Enclosure.VerticalMissExits` | raycast.js:145-179 | a vertical search from an open point of a walled grid that finds nothing stops at a vertical exit |
| `Enclosure.SearchFromOpenPointFinds` | raycast.js:109-179 | from an open point of a walled grid, with a tangent whose sign matches the facing quadrant, at least one of the two searches finds a wall |
| `FirstFrame.QuarterTurnFlags` | raycast.js:98-102 | a ray at `Math.PI / 2` faces down and, since `0.5 * Math.PI` is not below itself, left |
| `FirstFrame.ColumnSeven` | raycast.js:17-37 | in column 7 of the shipped map, rows 6 to 9 are open and row 10 is wall |
| `FirstFrame.CentreWalk` | raycast.js:133-143 | a walk down column 7 from y = 384, drifting at most 16/3 to the left per row, passes four open rows and stops on the wall row at y = 640 |
| `FirstFrame.CentreVerticalMisses` | raycast.js:150-179 | from (480, 352), facing down-left with a tangent of at least 12, the vertical search starts above the window and finds nothing |
| `FirstFrame.CentreHorizontalHits` | raycast.js:114-143 | from (480, 352), facing down-left with a tangent of at least 12, the horizontal search hits the bottom wall row at (480 − 224/t, 640) |
| `FirstFrame.InitialCentreRayIsHorizontal` | raycast.js:105-202 | ray 48 of the fan (raycast.js:238-250) of the initial player (raycast.js:56-65) has angle π/2, reports a horizontal hit at (480 − 224/t, 640) and a distance below `MAX_VALUE`, when `Math.tan(Math.PI / 2)` is at least 12 |
| `Enclosure.CastFromOpenPointHits` | raycast.js:105-202 | on the shipped map, a cast from an open point, with a tangent of the sign its quadrant gives, finds a wall at most 1191 away, so `MAX_VALUE` is not reported |
| `Frame.Tick` | raycast.js:291-299 | one frame updates the player, casts 96 rays from its new position and angle, projects one strip per ray, and keeps an open player open |

## Left out

- p5.js drawing and lifecycle are not modelled, because they are foreign library calls with no logic of their own. This covers `setup`, `clear`, `rect`, `fill`, `line`, `circle`, the colour-string building, the minimap scaling and the three `render` methods.
- `keyPressed` and `keyReleased` are not modelled, because they are input plumbing on a global key code. The two intents are plain fields of the player, or an `Intent` sequence for repeated ticks.
- The globals `grid`, `player` and `rays` are not modelled as shared state. They are passed explicitly, because the logic does not depend on mutation.
- `Player.radius` is not modelled, because only the drawing uses it.
- IEEE-754 rounding is not modelled, because every value is an exact real. Three places where it matters:
  - In the program, `2 * Math.PI + angle` can round up to exactly 2π. The model's normalised angle is always below 2π.
  - The program adds the angle step 96 times, accumulating rounding error. The model's ray i is exactly at rotation − FOV/2 + i·step.
  - `60 * (Math.PI / 180)` is taken exactly.
- `Math.tan`, `Math.cos`, `Math.sin` and `Math.sqrt` are parameters, not definitions.
  - Infinite or NaN results are out of scope.
  - The horizontal search treats a zero tangent as not-found. That is what the program's infinite or NaN first intercept leads to.
- `Projection.PlaneDistance` requires a positive tangent of half the field of view. This is a fact about `Math.tan`, not a restriction on callers.
- `Projection.WallHeight` models the program's `Infinity` height, at corrected distance zero, as `Unbounded`.
- `RaySet.CastAllRays` states each ray's angle through `CastRay`. That the angle equals `NormalizeAngle` of the fan angle follows from `Rays.NewRay`; it is not repeated in the loop's contract.
- `Geometry.DistanceSymmetricAndZero` proves zero distance for identical points. It does not prove the converse.
- `Enclosure.CastFromOpenPointHits` assumes `Rays.TanAgrees` for the ray, because `Math.tan` is a parameter. At exactly `0.5 * Math.PI` and `Math.PI`, `Math.tan` has the opposite sign to the one the facing flags give. Such a cast is not covered by this lemma. The centre ray of the initial view, whose player faces `Math.PI / 2`, is covered separately by `FirstFrame.InitialCentreRayIsHorizontal`.
- `FirstFrame.InitialCentreRayIsHorizontal` assumes only that `Math.tan(Math.PI / 2)` is at least 12. The double it returns is about 1.6 × 10^16, but `Math.tan` is a parameter of the model.
- `Enclosure.CastFromOpenPointHits` is proved for the shipped map only. On a map that is not walled all round, a cast can miss.
- `RayCaster.WithinDiagonal` bounds the distance by 1191, the window diagonal (1190.46…) rounded up, not by the diagonal itself.

## Findings

| source | as written | input that shows it | evidently intended | confidence | as-written member | corrected member |
|---|---|---|---|---|---|---|
| raycast.js:33-38 | the bounds test admits y == WINDOW_HEIGHT (704), so `Math.floor(704 / 64)` = 11 selects a row the 11-row grid does not have, and the second subscript throws a TypeError | `hasWallAt(100, 704)`; also reached inside `Ray.cast` by the vertical search from the open point (96, 608) with tan = 3, whose first touch point is (128, 704) | the bottom edge reads as wall, like the right edge (where the missing column gives `undefined != 0`) | not executed; follows from the bounds test and the 11-row grid. Reaching (128, 704) inside `Ray.cast` also needs `Math.tan` to return a double for which 608 + 32·tan rounds to exactly 704 | `GridWorld.AsWrittenThrowsOnBottomEdge` | `GridWorld.FarEdgesAreWall` |

In the model, `GridWorld.HasWallAtAsWritten` returns `None` where the program throws. Every other module uses the corrected `GridWorld.HasWallAt`. `Traversal.VerticalSearchReachesBottomEdge` shows the failing lookup is reached during a cast on the shipped map.

=== FILE: config.dfy ===
/**
 The fixed constants of the ray caster: map size, tile size, window size, field
 of view and strip layout. JavaScript doubles are modelled as Dafny reals; the two
 double-precision constants the engine relies on (`Math.PI` and
 `Number.MAX_VALUE`) are given here by their exact rational values.
 */
module Config {

  /** Side of one square grid cell, in world units. */
  const TILE_SIZE: real := 64.0

  const MAP_NUM_ROWS: int := 11
  const MAP_NUM_COLS: int := 15

  /** The window is exactly the map: any point outside it is treated as wall. */
  const WINDOW_WIDTH: real := MAP_NUM_COLS as real * TILE_SIZE
  const WINDOW_HEIGHT: real := MAP_NUM_ROWS as real * TILE_SIZE

  /** The double `Math.PI`, exactly: 884279719003555 / 2^48. */
  const PI: real := 884279719003555.0 / 281474976710656.0
  const TWO_PI: real := 2.0 * PI

  /** Field of view: sixty degrees. */
  const FOV_ANGLE: real := 60.0 * (PI / 180.0)

  const WALL_STRIP_WIDTH: int := 10
  /** One ray per screen strip: 960 / 10 = 96. */
  const NUM_RAYS: nat := (WINDOW_WIDTH / WALL_STRIP_WIDTH as real).Floor

  /** The double `Number.MAX_VALUE`, exactly: (2^53 - 1) * 2^971. Used as the
      distance of a search that found no wall. */
  const MAX_VALUE: real :=
    179769313486231570814527423731704356798070567525844996598917476803157260780028538760589558632766878171540458953514382464234321326889464182768467546703537516986049910576551282076245490090389328944075868508455133942304583236903222948165808559332123348274797826204144723168738177180919299881250404026184124858368.0

  /** The closed window [0, WINDOW_WIDTH] x [0, WINDOW_HEIGHT]. */
  predicate InWindow(x: real, y: real) {
    0.0 <= x <= WINDOW_WIDTH && 0.0 <= y <= WINDOW_HEIGHT
  }
}

=== FILE: enclosure.dfy ===
/**
 On the shipped map, which is walled all round, every cast from an open point
 with a tangent of the sign its quadrant gives finds a wall, so the program
 never reports the `Number.MAX_VALUE` sentinel for it. A search that misses
 must leave the window ahead of the player: the horizontal search through a
 side edge, the vertical search through the top or bottom edge. Both exits
 lie on the ray's one line, which cannot happen.
 */
module Enclosure {
  import opened Config
  import opened Geometry
  import opened GridWorld
  import opened Rays
  import opened Traversal
  import opened RayCaster

  /** Every open point of the grid lies at least one tile inside the window:
      the grid is walled all round. */
  ghost predicate Walled(grid: Grid) {
    forall x: real, y: real {:trigger HasWallAt(grid, x, y)} :: !HasWallAt(grid, x, y) ==>
      TILE_SIZE <= x < WINDOW_WIDTH - TILE_SIZE && TILE_SIZE <= y < WINDOW_HEIGHT - TILE_SIZE
  }

  /** The shipped map is walled all round. */
  lemma MapIsWalled()
    ensures Walled(MAP)
  {
    forall x: real, y: real | !HasWallAt(MAP, x, y)
      ensures TILE_SIZE <= x < WINDOW_WIDTH - TILE_SIZE && TILE_SIZE <= y < WINDOW_HEIGHT - TILE_SIZE
    {
      MapOpenPointsAreInterior(x, y);
    }
  }

  /** Where a missing horizontal search stopped: on the ray's line, ahead of
      the player vertically, level with the window, but outside it. */
  predicate HorizontalExit(f: Facing, px: real, py: real, t: real, x: real, y: real) {
    && OnLine(x, y, px, py, t)
    && (f.down ==> py <= y) && (f.up ==> y <= py)
    && 0.0 <= y <= WINDOW_HEIGHT
    && !InWindow(x, y)
  }

  /** Where a missing vertical search stopped: on the ray's line, ahead of the
      player horizontally, within the window's width, but outside it. */
  predicate VerticalExit(f: Facing, px: real, py: real, t: real, x: real, y: real) {
    && OnLine(x, y, px, py, t)
    && (f.right ==> px <= x) && (f.left ==> x <= px)
    && 0.0 <= x <= WINDOW_WIDTH
    && !InWindow(x, y)
  }

  lemma ProductSign(a: real, t: real)
    ensures 0.0 < a && 0.0 < t ==> 0.0 < a * t
    ensures 0.0 < a && t < 0.0 ==> a * t < 0.0
    ensures 0.0 <= a && 0.0 <= t ==> 0.0 <= a * t
    ensures a <= 0.0 && 0.0 <= t ==> a * t <= 0.0
    ensures 0.0 <= a && t <= 0.0 ==> a * t <= 0.0
    ensures a <= 0.0 && t <= 0.0 ==> 0.0 <= a * t
  {
  }

  /** A horizontal search with a non-zero tangent leaves through the side edge
      the ray faces. */
  lemma HorizontalExitSide(f: Facing, px: real, py: real, t: real, x: real, y: real)
    requires f.down != f.up && f.right != f.left
    requires InWindow(px, py) && TanAgrees(f, t) && t != 0.0
    requires HorizontalExit(f, px, py, t, x, y)
    ensures f.right ==> WINDOW_WIDTH < x
    ensures f.left ==> x < 0.0
  {
    assert (x - px) * t == y - py;
    ProductSign(x - px, t);
  }

  /** A vertical search leaves through the top or bottom edge the ray faces. */
  lemma VerticalExitSide(f: Facing, px: real, py: real, t: real, x: real, y: real)
    requires f.down != f.up && f.right != f.left
    requires InWindow(px, py) && TanAgrees(f, t)
    requires VerticalExit(f, px, py, t, x, y)
    ensures t != 0.0
    ensures f.down ==> WINDOW_HEIGHT < y
    ensures f.up ==> y < 0.0
  {
    var a := x - px;
    assert a * t == y - py;
    if f.down && f.right {
      assert 0.0 <= a && 0.0 <= t;
      ProductSign(a, t);
    } else if f.down {
      assert a <= 0.0 && t <= 0.0;
      ProductSign(a, t);
    } else if f.right {
      assert 0.0 <= a && t <= 0.0;
      ProductSign(a, t);
    } else {
      assert a <= 0.0 && 0.0 <= t;
      ProductSign(a, t);
    }
  }

  /** Where a horizontal exit beyond a side edge and a vertical exit beyond
      the top or bottom edge lie relative to each other. */
  lemma ExitOrder(f: Facing, xh: real, yh: real, xv: real, yv: real)
    requires 0.0 <= yh <= WINDOW_HEIGHT && 0.0 <= xv <= WINDOW_WIDTH
    requires (f.right ==> WINDOW_WIDTH < xh) && (f.left ==> xh < 0.0)
    requires (f.down ==> WINDOW_HEIGHT < yv) && (f.up ==> yv < 0.0)
    ensures f.right ==> 0.0 < xh - xv
    ensures f.left ==> xh - xv < 0.0
    ensures f.down ==> yh - yv < 0.0
    ensures f.up ==> 0.0 < yh - yv
  {
  }

  /** The two exits cannot both lie on the ray's line. */
  lemma ExitsDisagree(f: Facing, px: real, py: real, t: real, xh: real, yh: real, xv: real, yv: real)
    requires f.down != f.up && f.right != f.left
    requires InWindow(px, py) && TanAgrees(f, t) && t != 0.0
    ensures !(HorizontalExit(f, px, py, t, xh, yh) && VerticalExit(f, px, py, t, xv, yv))
  {
    if HorizontalExit(f, px, py, t, xh, yh) && VerticalExit(f, px, py, t, xv, yv) {
      HorizontalExitSide(f, px, py, t, xh, yh);
      VerticalExitSide(f, px, py, t, xv, yv);
      ExitOrder(f, xh, yh, xv, yv);
      assert (xh - xv) * t == yh - yv by {
        assert (xh - px) * t - (xv - px) * t == (xh - xv) * t;
      }
      ProductSign(xh - xv, t);
    }
  }

  /** Touch points move monotonically in the direction of their step. */
  lemma {:induction false} TouchMonotone(c: real, d: real, k: nat)
    ensures 0.0 <= d ==> c <= Touch(c, d, k)
    ensures d <= 0.0 ==> Touch(c, d, k) <= c
  {
    if k > 0 {
      TouchMonotone(c, d, k - 1);
    }
  }

  /** On a walled grid, a walk along y that starts between the first and
      last interior grid lines stops level with the window: every earlier
      touch point probed an open, hence interior, cell. */
  lemma YWalkStopsLevel(grid: Grid, tx: real, ty: real, s: Step, probe: Step)
    requires Walled(grid)
    requires (s.dy == TILE_SIZE && probe.dy == 0.0) || (s.dy == -TILE_SIZE && probe.dy == -1.0)
    requires TILE_SIZE <= ty <= WINDOW_HEIGHT - TILE_SIZE
    ensures 0.0 <= Touch(ty, s.dy, WalkSteps(grid, tx, ty, s, probe)) <= WINDOW_HEIGHT
  {
    var k := WalkSteps(grid, tx, ty, s, probe);
    if k > 0 {
      var xq := Touch(tx, s.dx, k - 1);
      var yq := Touch(ty, s.dy, k - 1);
      WalkPassesEarlier(grid, tx, ty, s, probe, k - 1);
      assert !HasWallAt(grid, xq + probe.dx, yq + probe.dy);
      assert Touch(ty, s.dy, k) == yq + s.dy;
    }
  }

  /** Likewise a walk along x stops within the window's width. */
  lemma XWalkStopsLevel(grid: Grid, tx: real, ty: real, s: Step, probe: Step)
    requires Walled(grid)
    requires (s.dx == TILE_SIZE && probe.dx == 0.0) || (s.dx == -TILE_SIZE && probe.dx == -1.0)
    requires TILE_SIZE <= tx <= WINDOW_WIDTH - TILE_SIZE
    ensures 0.0 <= Touch(tx, s.dx, WalkSteps(grid, tx, ty, s, probe)) <= WINDOW_WIDTH
  {
    var k := WalkSteps(grid, tx, ty, s, probe);
    if k > 0 {
      var xq := Touch(tx, s.dx, k - 1);
      var yq := Touch(ty, s.dy, k - 1);
      WalkPassesEarlier(grid, tx, ty, s, probe, k - 1);
      assert !HasWallAt(grid, xq + probe.dx, yq + probe.dy);
      assert Touch(tx, s.dx, k) == xq + s.dx;
    }
  }

  /** A walk along y on a walled grid that finds nothing stops at a touch
      point outside the window but level with it, on the walk's line and no
      nearer than its start. */
  lemma YWalkMissExit(grid: Grid, tx: real, ty: real, s: Step, probe: Step, px: real, py: real, t: real)
    requires Walled(grid)
    requires (s.dy == TILE_SIZE && probe.dy == 0.0) || (s.dy == -TILE_SIZE && probe.dy == -1.0)
    requires TILE_SIZE <= ty <= WINDOW_HEIGHT - TILE_SIZE
    requires OnLine(tx, ty, px, py, t) && s.dx * t == s.dy
    requires Walk(grid, tx, ty, s, probe).NotFound?
    ensures var k := WalkSteps(grid, tx, ty, s, probe);
      var x := Touch(tx, s.dx, k);
      var y := Touch(ty, s.dy, k);
      && OnLine(x, y, px, py, t) && 0.0 <= y <= WINDOW_HEIGHT && !InWindow(x, y)
      && (s.dy == TILE_SIZE ==> ty <= y) && (s.dy == -TILE_SIZE ==> y <= ty)
  {
    var k := WalkSteps(grid, tx, ty, s, probe);
    WalkReportsLast(grid, tx, ty, s, probe);
    YWalkStopsLevel(grid, tx, ty, s, probe);
    TouchOnLine(tx, ty, s, px, py, t, k);
    TouchMonotone(ty, s.dy, k);
  }

  /** The walk-level facts above, for a walk that starts ahead of the player
      vertically, make its stopping point a horizontal exit. */
  lemma YWalkExit(grid: Grid, tx: real, ty: real, s: Step, probe: Step,
                  f: Facing, px: real, py: real, t: real)
    requires Walled(grid)
    requires f.down != f.up
    requires (f.down && s.dy == TILE_SIZE && probe.dy == 0.0)
          || (f.up && s.dy == -TILE_SIZE && probe.dy == -1.0)
    requires TILE_SIZE <= ty <= WINDOW_HEIGHT - TILE_SIZE
    requires (f.down ==> py <= ty) && (f.up ==> ty <= py)
    requires OnLine(tx, ty, px, py, t) && s.dx * t == s.dy
    requires Walk(grid, tx, ty, s, probe).NotFound?
    ensures var k := WalkSteps(grid, tx, ty, s, probe);
      HorizontalExit(f, px, py, t, Touch(tx, s.dx, k), Touch(ty, s.dy, k))
  {
    YWalkMissExit(grid, tx, ty, s, probe, px, py, t);
  }

  /** Likewise for a walk along x. */
  lemma XWalkMissExit(grid: Grid, tx: real, ty: real, s: Step, probe: Step, px: real, py: real, t: real)
    requires Walled(grid)
    requires (s.dx == TILE_SIZE && probe.dx == 0.0) || (s.dx == -TILE_SIZE && probe.dx == -1.0)
    requires TILE_SIZE <= tx <= WINDOW_WIDTH - TILE_SIZE
    requires OnLine(tx, ty, px, py, t) && s.dx * t == s.dy
    requires Walk(grid, tx, ty, s, probe).NotFound?
    ensures var k := WalkSteps(grid, tx, ty, s, probe);
      var x := Touch(tx, s.dx, k);
      var y := Touch(ty, s.dy, k);
      && OnLine(x, y, px, py, t) && 0.0 <= x <= WINDOW_WIDTH && !InWindow(x, y)
      && (s.dx == TILE_SIZE ==> tx <= x) && (s.dx == -TILE_SIZE ==> x <= tx)
  {
    var k := WalkSteps(grid, tx, ty, s, probe);
    WalkReportsLast(grid, tx, ty, s, probe);
    XWalkStopsLevel(grid, tx, ty, s, probe);
    TouchOnLine(tx, ty, s, px, py, t, k);
    TouchMonotone(tx, s.dx, k);
  }

  /** The first horizontal touch point from an interior point lies between the
      first and last interior grid lines, on the ray's line, not behind the
      player. */
  lemma HorizontalStart(px: real, py: real, f: Facing, t: real)
    requires TILE_SIZE <= py < WINDOW_HEIGHT - TILE_SIZE
    requires t != 0.0
    ensures var y0 := HorizontalFirstY(py, f);
      && TILE_SIZE <= y0 <= WINDOW_HEIGHT - TILE_SIZE
      && (f.down ==> py <= y0) && (!f.down ==> y0 <= py)
      && OnLine(HorizontalFirstX(px, py, f, t), y0, px, py, t)
  {
    var y0 := HorizontalFirstY(py, f);
    assert 1 <= TileIndex(py) <= 9;
    assert ((y0 - py) / t) * t == y0 - py;
  }

  /** Likewise the first vertical touch point. */
  lemma VerticalStart(px: real, py: real, f: Facing, t: real)
    requires TILE_SIZE <= px < WINDOW_WIDTH - TILE_SIZE
    ensures var x0 := VerticalFirstX(px, f);
      && TILE_SIZE <= x0 <= WINDOW_WIDTH - TILE_SIZE
      && (f.right ==> px <= x0) && (!f.right ==> x0 <= px)
      && OnLine(x0, VerticalFirstY(px, py, f, t), px, py, t)
  {
    assert 1 <= TileIndex(px) <= 13;
  }

  /** A horizontal search from an open point of a walled grid that finds
      nothing stopped at a horizontal exit. */
  lemma HorizontalMissExits(grid: Grid, px: real, py: real, f: Facing, t: real)
    requires Walled(grid)
    requires f.down != f.up && f.right != f.left
    requires !HasWallAt(grid, px, py)
    requires TanAgrees(f, t) && t != 0.0
    requires HorizontalSearch(grid, px, py, f, t).NotFound?
    ensures var x0 := HorizontalFirstX(px, py, f, t);
      var y0 := HorizontalFirstY(py, f);
      var s := HorizontalStep(f, t);
      var k := WalkSteps(grid, x0, y0, s, HorizontalProbe(f));
      HorizontalExit(f, px, py, t, Touch(x0, s.dx, k), Touch(y0, s.dy, k))
  {
    var x0 := HorizontalFirstX(px, py, f, t);
    var y0 := HorizontalFirstY(py, f);
    var s := HorizontalStep(f, t);
    var probe := HorizontalProbe(f);
    assert TILE_SIZE <= py < WINDOW_HEIGHT - TILE_SIZE;
    HorizontalStart(px, py, f, t);
    HorizontalStepFollowsRay(f, t);
    HorizontalSearchIsWalk(grid, px, py, f, t);
    assert Walk(grid, x0, y0, s, probe).NotFound?;
    assert (f.down && s.dy == TILE_SIZE && probe.dy == 0.0)
        || (f.up && s.dy == -TILE_SIZE && probe.dy == -1.0);
    YWalkExit(grid, x0, y0, s, probe, f, px, py, t);
  }

  /** A vertical search from an open point of a walled grid that finds
      nothing stopped at a vertical exit. */
  lemma VerticalMissExits(grid: Grid, px: real, py: real, f: Facing, t: real)
    requires Walled(grid)
    requires f.down != f.up && f.right != f.left
    requires !HasWallAt(grid, px, py)
    requires TanAgrees(f, t)
    requires VerticalSearch(grid, px, py, f, t).NotFound?
    ensures var x0 := VerticalFirstX(px, f);
      var y0 := VerticalFirstY(px, py, f, t);
      var s := VerticalStep(f, t);
      var k := WalkSteps(grid, x0, y0, s, VerticalProbe(f));
      VerticalExit(f, px, py, t, Touch(x0, s.dx, k), Touch(y0, s.dy, k))
  {
    var x0 := VerticalFirstX(px, f);
    var y0 := VerticalFirstY(px, py, f, t);
    var s := VerticalStep(f, t);
    var probe := VerticalProbe(f);
    VerticalStart(px, py, f, t);
    VerticalStepFollowsRay(f, t);
    VerticalSearchIsWalk(grid, px, py, f, t);
    XWalkMissExit(grid, x0, y0, s, probe, px, py, t);
  }

  /** From an open point of a walled grid, with a tangent whose sign matches
      the ray's quadrant, at least one of the two searches finds a wall. */
  lemma SearchFromOpenPointFinds(grid: Grid, px: real, py: real, f: Facing, t: real)
    requires Walled(grid)
    requires f.down != f.up && f.right != f.left
    requires !HasWallAt(grid, px, py)
    requires TanAgrees(f, t)
    ensures HorizontalSearch(grid, px, py, f, t).Found? || VerticalSearch(grid, px, py, f, t).Found?
  {
    if HorizontalSearch(grid, px, py, f, t).NotFound? && VerticalSearch(grid, px, py, f, t).NotFound? {
      VerticalMissExits(grid, px, py, f, t);
      var xv0 := VerticalFirstX(px, f);
      var yv0 := VerticalFirstY(px, py, f, t);
      var sv := VerticalStep(f, t);
      var kv := WalkSteps(grid, xv0, yv0, sv, VerticalProbe(f));
      var xv, yv := Touch(xv0, sv.dx, kv), Touch(yv0, sv.dy, kv);
      VerticalExitSide(f, px, py, t, xv, yv);
      HorizontalMissExits(grid, px, py, f, t);
      var xh0 := HorizontalFirstX(px, py, f, t);
      var yh0 := HorizontalFirstY(py, f);
      var sh := HorizontalStep(f, t);
      var kh := WalkSteps(grid, xh0, yh0, sh, HorizontalProbe(f));
      ExitsDisagree(f, px, py, t, Touch(xh0, sh.dx, kh), Touch(yh0, sh.dy, kh), xv, yv);
    }
  }

  /** So every cast from an open point of the shipped map, for a tangent of
      the sign its quadrant gives, reports a wall: its distance is at most the
      window's diagonal, never the sentinel. */
  lemma CastFromOpenPointHits(trig: Trig, px: real, py: real, ray: Ray)
    requires SqrtIsRoot(trig)
    requires WellClassified(ray)
    requires !HasWallAt(MAP, px, py)
    requires TanAgrees(ray.facing, trig.tan(ray.rayAngle))
    ensures Cast(MAP, trig, px, py, ray).distance <= 1191.0
  {
    MapIsWalled();
    SearchFromOpenPointFinds(MAP, px, py, ray.facing, trig.tan(ray.rayAngle));
    FoundBeatsMissed(MAP, trig, px, py, ray);
    CastWithinDiagonal(MAP, trig, px, py, ray);
  }
}

=== FILE: first_frame.dfy ===
/**
 The first frame's centre ray. The program's player starts at (480, 352) facing
 `Math.PI / 2`, so ray 48 of the first fan points straight down. A rounded
 `Math.tan(Math.PI / 2)` is a huge positive number, while the ray's flags say
 down and left, so the tangent has the sign of neither quadrant the flags allow
 and the general result of `Enclosure` does not apply. The ray still reports a
 horizontal hit on the bottom wall row at a finite distance.
 */
module FirstFrame {
  import opened Config
  import opened Geometry
  import opened GridWorld
  import opened Players
  import opened Rays
  import opened Traversal
  import opened RayCaster
  import opened RaySet

  /** A coordinate of [448, 512) lies in tile 7. */
  lemma TileSeven(c: real)
    requires 448.0 <= c < 512.0
    ensures TileIndex(c) == 7
  {
  }

  /** Column 7 of the shipped map is open in rows 6 to 9 and wall in row 10. */
  lemma ColumnSeven(x: real, row: int)
    requires 448.0 <= x < 512.0
    requires 6 <= row <= 10
    ensures HasWallAt(MAP, x, row as real * TILE_SIZE) <==> row == 10
  {
    TileSeven(x);
    var y := row as real * TILE_SIZE;
    assert TileIndex(y) == row;
    assert WellFormed(MAP);
    assert MAP[6][7] == 0 && MAP[7][7] == 0 && MAP[8][7] == 0 && MAP[9][7] == 0 && MAP[10][7] == 1;
  }

  /** One step of a walk past an open touch point, to the next one. */
  lemma WalkPasses(grid: Grid, tx: real, ty: real, s: Step, probe: Step, nx: real, ny: real)
    requires TileStride(s)
    requires InWindow(tx, ty) && !HasWallAt(grid, tx + probe.dx, ty + probe.dy)
    requires nx == tx + s.dx && ny == ty + s.dy
    ensures Walk(grid, tx, ty, s, probe) == Walk(grid, nx, ny, s, probe)
  {
  }

  /** A walk stops at a touch point in the window that probes a wall. */
  lemma WalkHitsHere(grid: Grid, tx: real, ty: real, s: Step, probe: Step)
    requires TileStride(s)
    requires InWindow(tx, ty) && HasWallAt(grid, tx + probe.dx, ty + probe.dy)
    ensures Walk(grid, tx, ty, s, probe) == Found(tx, ty)
  {
  }

  /** A walk that starts outside the window finds nothing. */
  lemma WalkStartsOutside(grid: Grid, tx: real, ty: real, s: Step, probe: Step)
    requires TileStride(s)
    requires !InWindow(tx, ty)
    ensures Walk(grid, tx, ty, s, probe) == NotFound
  {
  }

  /** A walk that goes down one row per step, drifting left by `a`, passes
      four open touch points and stops at a wall on the fifth. */
  lemma DownWalkFifth(grid: Grid, x0: real, a: real)
    requires 0.0 < a && 0.0 <= x0 - 4.0 * a && x0 <= WINDOW_WIDTH
    requires !HasWallAt(grid, x0, 384.0) && !HasWallAt(grid, x0 - a, 448.0)
    requires !HasWallAt(grid, x0 - 2.0 * a, 512.0) && !HasWallAt(grid, x0 - 3.0 * a, 576.0)
    requires HasWallAt(grid, x0 - 4.0 * a, 640.0)
    ensures Walk(grid, x0, 384.0, Step(-a, TILE_SIZE), Step(0.0, 0.0)) == Found(x0 - 4.0 * a, 640.0)
  {
    var s := Step(-a, TILE_SIZE);
    var probe := Step(0.0, 0.0);
    WalkPassesTwo(grid, x0, 384.0, a);
    WalkPassesTwo(grid, x0 - 2.0 * a, 512.0, a);
    WalkHitsHere(grid, x0 - 4.0 * a, 640.0, s, probe);
  }

  /** Two steps of such a walk past two open touch points. */
  lemma WalkPassesTwo(grid: Grid, x: real, y: real, a: real)
    requires 0.0 < a && 0.0 <= x - 2.0 * a && x <= WINDOW_WIDTH
    requires 0.0 <= y && y + TILE_SIZE <= WINDOW_HEIGHT
    requires !HasWallAt(grid, x, y) && !HasWallAt(grid, x - a, y + TILE_SIZE)
    ensures Walk(grid, x, y, Step(-a, TILE_SIZE), Step(0.0, 0.0)) ==
            Walk(grid, x - 2.0 * a, y + 2.0 * TILE_SIZE, Step(-a, TILE_SIZE), Step(0.0, 0.0))
  {
    var s := Step(-a, TILE_SIZE);
    var probe := Step(0.0, 0.0);
    WalkPasses(grid, x, y, s, probe, x - a, y + TILE_SIZE);
    WalkPasses(grid, x - a, y + TILE_SIZE, s, probe, x - 2.0 * a, y + 2.0 * TILE_SIZE);
  }

  /** The walk of the initial view's centre ray down column 7: with a steep
      slope (`a` at most 16/3 across per tile), it passes the open rows 6 to 9
      and stops on the bottom wall row, at y = 640. */
  lemma CentreWalk(a: real)
    requires 0.0 < a <= 16.0 / 3.0
    ensures Walk(MAP, 480.0 + a / 2.0, 384.0, Step(-a, TILE_SIZE), Step(0.0, 0.0)) ==
            Found(480.0 + a / 2.0 - 4.0 * a, 640.0)
  {
    var x0 := 480.0 + a / 2.0;
    ColumnSeven(x0, 6);
    ColumnSeven(x0 - a, 7);
    ColumnSeven(x0 - 2.0 * a, 8);
    ColumnSeven(x0 - 3.0 * a, 9);
    ColumnSeven(x0 - 4.0 * a, 10);
    DownWalkFifth(MAP, x0, a);
  }

  /** From the initial position, facing down and left with a positive
      tangent, the horizontal search is the walk from (480 + a / 2, 384) with
      step (-a, 64), where a = 64 / t. */
  lemma CentreHorizontalStart(grid: Grid, t: real)
    requires t > 0.0
    ensures HorizontalSearch(grid, 480.0, 352.0, Facing(true, false, false, true), t) ==
            Walk(grid, 480.0 + (TILE_SIZE / t) / 2.0, 384.0,
                 Step(-(TILE_SIZE / t), TILE_SIZE), Step(0.0, 0.0))
  {
    var f := Facing(true, false, false, true);
    HorizontalSearchIsWalk(grid, 480.0, 352.0, f, t);
    DownLeftStep(t);
    CentreFirstIntercept(t);
  }

  /** Facing down and left with a positive tangent, the corrected horizontal
      step runs one tile down and 64 / t to the left. */
  lemma DownLeftStep(t: real)
    requires t > 0.0
    ensures HorizontalStep(Facing(true, false, false, true), t) == Step(-(TILE_SIZE / t), TILE_SIZE)
  {
    assert 0.0 < TILE_SIZE / t;
  }

  /** The first horizontal intercept from the initial position, facing down:
      half a tile of drift from x = 480, on the line y = 384. */
  lemma CentreFirstIntercept(t: real)
    requires t > 0.0
    ensures HorizontalFirstY(352.0, Facing(true, false, false, true)) == 384.0
    ensures HorizontalFirstX(480.0, 352.0, Facing(true, false, false, true), t) ==
            480.0 + (TILE_SIZE / t) / 2.0
  {
    assert TileIndex(352.0) == 5;
  }

  /** The flags of an angle of exactly `Math.PI / 2`: down and left. */
  lemma QuarterTurnFlags()
    ensures Classify(PI / 2.0) == Facing(true, false, false, true)
  {
  }

  /** From the initial position, facing straight down with a tangent of at
      least 12, as a rounded `Math.tan(Math.PI / 2)` is: the first vertical
      intercept lies above the window, so the vertical search finds nothing,
      whatever the grid. */
  lemma CentreVerticalMisses(grid: Grid, t: real)
    requires t >= 12.0
    ensures VerticalSearch(grid, 480.0, 352.0, Facing(true, false, false, true), t) == NotFound
  {
    var f := Facing(true, false, false, true);
    VerticalSearchIsWalk(grid, 480.0, 352.0, f, t);
    assert TileIndex(480.0) == 7;
    var x0 := VerticalFirstX(480.0, f);
    var y0 := VerticalFirstY(480.0, 352.0, f, t);
    assert x0 == 448.0;
    assert y0 == 352.0 - 32.0 * t;
    WalkStartsOutside(grid, x0, y0, VerticalStep(f, t), VerticalProbe(f));
  }

  /** With the same tangent the horizontal search walks down column 7 to the
      bottom wall row. */
  lemma CentreHorizontalHits(t: real)
    requires t >= 12.0
    ensures HorizontalSearch(MAP, 480.0, 352.0, Facing(true, false, false, true), t) ==
            Found(480.0 - 224.0 / t, 640.0)
  {
    CentreSlope(t);
    CentreHorizontalStart(MAP, t);
    CentreWalk(TILE_SIZE / t);
  }

  /** A tangent of at least 12 drifts at most 16/3 across per tile, and four
      and a half tiles of drift make 224 / t. */
  lemma CentreSlope(t: real)
    requires t >= 12.0
    ensures 0.0 < TILE_SIZE / t <= 16.0 / 3.0
    ensures 480.0 + (TILE_SIZE / t) / 2.0 - 4.0 * (TILE_SIZE / t) == 480.0 - 224.0 / t
  {
    var a := TILE_SIZE / t;
    assert a * t == TILE_SIZE;
  }

  /** The centre ray of the program's first frame: from the initial player at
      (480, 352), facing `Math.PI / 2`, ray 48 of the fan points straight
      down. Its tangent disagrees with its flags, so `Enclosure.CastFromOpenPointHits`
      does not apply; still, the horizontal search finds the bottom wall row,
      and the ray reports a horizontal hit at a finite distance. */
  lemma InitialCentreRayIsHorizontal(trig: Trig)
    requires SqrtIsRoot(trig)
    requires trig.tan(PI / 2.0) >= 12.0
    ensures var p := InitialPlayer();
      var r := CastRay(MAP, trig, p.x, p.y, FanAngle(p.rotationAngle, NUM_RAYS / 2));
      && r.rayAngle == PI / 2.0
      && !r.wasHitVertical
      && r.wallHitX == 480.0 - 224.0 / trig.tan(PI / 2.0) && r.wallHitY == 640.0
      && r.distance < MAX_VALUE
  {
    var p := InitialPlayer();
    assert p.x == 480.0 && p.y == 352.0 && p.rotationAngle == PI / 2.0;
    assert NUM_RAYS / 2 == 48;
    assert FanAngle(p.rotationAngle, 48) == PI / 2.0;
    assert IsWholeTurns(PI / 2.0 - PI / 2.0) by {
      assert (PI / 2.0 - PI / 2.0) / TWO_PI == 0 as real;
    }
    NormalizeAngleCanonical(PI / 2.0, PI / 2.0);
    var ray := NewRay(PI / 2.0);
    QuarterTurnFlags();
    assert ray.rayAngle == PI / 2.0 && ray.facing == Facing(true, false, false, true);
    CentreVerticalMisses(MAP, trig.tan(PI / 2.0));
    CentreHorizontalHits(trig.tan(PI / 2.0));
    FoundBeatsMissed(MAP, trig, 480.0, 352.0, ray);
  }
}

=== FILE: frame.dfy ===
/**
 One frame of the program (raycast.js:291-299): `draw` clears the canvas, then
 calls `update`, which moves the player and casts the fan from the new
 position, then `render3DProjectedWalls`, which projects the fan into strips.
 The clearing and the drawing are outside the model. The fan and the strips
 both use the player as it is after the move.
 */
module Frame {
  import opened Config
  import opened Geometry
  import opened GridWorld
  import opened Players
  import opened Rays
  import opened RayCaster
  import opened RaySet
  import opened Projection

  method Tick(grid: Grid, trig: Trig, p: Player) returns (q: Player, rays: seq<Ray>, strips: seq<Strip>)
    requires SqrtIsRoot(trig)
    requires trig.tan(FOV_ANGLE / 2.0) > 0.0
    ensures q == Update(grid, trig, p)
    ensures !HasWallAt(grid, p.x, p.y) ==> !HasWallAt(grid, q.x, q.y)
    ensures |rays| == NUM_RAYS && |strips| == NUM_RAYS
    ensures forall i :: 0 <= i < NUM_RAYS ==>
              rays[i] == CastRay(grid, trig, q.x, q.y, FanAngle(q.rotationAngle, i))
    ensures forall i :: 0 <= i < NUM_RAYS ==>
              strips[i] == ProjectRay(trig, rays[i], q.rotationAngle, i)
  {
    q := Update(grid, trig, p);
    rays := CastAllRays(grid, trig, q);
    strips := ProjectAll(trig, rays, q.rotationAngle);
  }
}

=== FILE: geometry.dfy ===
/**
 Angle normalisation and point distance (raycast.js:252-262), plus the record
 through which the model receives the floating-point primitives it does not
 define: `Math.tan`, `Math.cos`, `Math.sin` and `Math.sqrt`.
 */
module Geometry {
  import opened Config

  /** The transcendental functions the engine calls. They are inputs of the
      model: nothing is assumed about them except where a contract says so. */
  datatype Trig = Trig(tan: real -> real, cos: real -> real, sin: real -> real, sqrt: real -> real)

  /** `sqrt` returns the non-negative square root of every non-negative number
      (and of zero, zero itself). */
  ghost predicate SqrtIsRoot(trig: Trig) {
    && trig.sqrt(0.0) == 0.0
    && forall v: real {:trigger trig.sqrt(v)} :: 0.0 <= v ==>
         0.0 <= trig.sqrt(v) && trig.sqrt(v) * trig.sqrt(v) == v
  }

  /** The integer part of `v`, rounded toward zero (as JavaScript's `%` uses it). */
  function Trunc(v: real): (n: int)
    ensures 0.0 <= v ==> 0 <= n && n as real <= v < n as real + 1.0
    ensures v < 0.0 ==> n <= 0 && n as real - 1.0 < v <= n as real
  {
    if 0.0 <= v then v.Floor else -((-v).Floor)
  }

  /** `d` is a whole number of turns. */
  predicate IsWholeTurns(d: real) {
    (d / TWO_PI).Floor as real == d / TWO_PI
  }

  /** JavaScript's `angle % (2 * Math.PI)`: the remainder keeps the sign of
      `angle` and is smaller than one turn in magnitude. */
  function RemTurn(angle: real): (r: real)
    ensures 0.0 <= angle ==> 0.0 <= r < TWO_PI
    ensures angle < 0.0 ==> -TWO_PI < r <= 0.0
    ensures IsWholeTurns(angle - r)
  {
    var n := Trunc(angle / TWO_PI);
    assert angle - (angle - n as real * TWO_PI) == n as real * TWO_PI;
    angle - n as real * TWO_PI
  }

  /** `normalizeAngle`: brings an angle into one turn [0, 2 PI) without changing
      its direction. */
  function NormalizeAngle(angle: real): (r: real)
    ensures 0.0 <= r < TWO_PI
    ensures IsWholeTurns(r - angle)
  {
    var m := RemTurn(angle);
    if m < 0.0 then
      WholeTurnsShift(angle - m, -TWO_PI);
      TWO_PI + m
    else
      WholeTurnsNeg(angle - m);
      m
  }

  lemma WholeTurnsNeg(d: real)
    requires IsWholeTurns(d)
    ensures IsWholeTurns(-d)
  {
    var k := (d / TWO_PI).Floor;
    assert -d / TWO_PI == (-k) as real;
  }

  lemma WholeTurnsShift(d: real, e: real)
    requires IsWholeTurns(d)
    requires e == TWO_PI || e == -TWO_PI
    ensures IsWholeTurns(-(d + e))
  {
    var k := (d / TWO_PI).Floor;
    var j := if e == TWO_PI then -k - 1 else -k + 1;
    assert d == k as real * TWO_PI;
    assert -(d + e) == j as real * TWO_PI;
    WholeMultiple(-(d + e), j);
  }

  /** A whole multiple of a turn is a whole number of turns. */
  lemma WholeMultiple(d: real, j: int)
    requires d == j as real * TWO_PI
    ensures IsWholeTurns(d)
  {
    assert d / TWO_PI == j as real;
  }

  /** Two angles of the same direction that both lie in [0, 2 PI) are equal. */
  lemma SameTurnUnique(a: real, b: real)
    requires 0.0 <= a < TWO_PI && 0.0 <= b < TWO_PI
    requires IsWholeTurns(a - b)
    ensures a == b
  {
    var k := ((a - b) / TWO_PI).Floor;
    assert (a - b) / TWO_PI == k as real;
    assert -1.0 < (a - b) / TWO_PI < 1.0;
  }

  /** Normalisation is the identity on [0, 2 PI), and it maps every angle to
      the unique angle of that interval with the same direction. */
  lemma NormalizeAngleCanonical(angle: real, b: real)
    requires 0.0 <= b < TWO_PI
    requires IsWholeTurns(b - angle)
    ensures NormalizeAngle(angle) == b
  {
    var r := NormalizeAngle(angle);
    var k1 := ((r - angle) / TWO_PI).Floor;
    var k2 := ((b - angle) / TWO_PI).Floor;
    assert (r - b) / TWO_PI == (k1 - k2) as real;
    SameTurnUnique(r, b);
  }

  /** Normalising twice is normalising once. */
  lemma NormalizeAngleIdempotent(angle: real)
    ensures NormalizeAngle(NormalizeAngle(angle)) == NormalizeAngle(angle)
  {
    var r := NormalizeAngle(angle);
    assert (r - r) / TWO_PI == 0 as real;
    NormalizeAngleCanonical(r, r);
  }

  /** Angles one whole turn apart normalise to the same value. */
  lemma NormalizeAngleTurnInvariant(angle: real, k: int)
    ensures NormalizeAngle(angle + k as real * TWO_PI) == NormalizeAngle(angle)
  {
    var r := NormalizeAngle(angle);
    var j := ((r - angle) / TWO_PI).Floor;
    assert (r - (angle + k as real * TWO_PI)) / TWO_PI == (j - k) as real;
    NormalizeAngleCanonical(angle + k as real * TWO_PI, r);
  }

  /** `distanceBetweenPoints`: the Euclidean distance, through `sqrt`. */
  function Distance(trig: Trig, x1: real, y1: real, x2: real, y2: real): (d: real)
    requires SqrtIsRoot(trig)
    ensures 0.0 <= d
    ensures d * d == (x2 - x1) * (x2 - x1) + (y2 - y1) * (y2 - y1)
  {
    trig.sqrt((x2 - x1) * (x2 - x1) + (y2 - y1) * (y2 - y1))
  }

  /** The distance is symmetric, and zero between a point and itself. */
  lemma DistanceSymmetricAndZero(trig: Trig, x1: real, y1: real, x2: real, y2: real)
    requires SqrtIsRoot(trig)
    ensures Distance(trig, x1, y1, x2, y2) == Distance(trig, x2, y2, x1, y1)
    ensures Distance(trig, x1, y1, x1, y1) == 0.0
  {
    assert (x2 - x1) * (x2 - x1) == (x1 - x2) * (x1 - x2);
    assert (y2 - y1) * (y2 - y1) == (y1 - y2) * (y1 - y2);
    assert (x1 - x1) * (x1 - x1) + (y1 - y1) * (y1 - y1) == 0.0;
  }
}

=== FILE: grid_world.dfy ===
/**
 The occupancy grid and its wall lookup (class `Map` of raycast.js). A grid is a
 table of rows of cell values; a cell holds a wall when its value is not zero.
 */
module GridWorld {
  import opened Config

  type Grid = seq<seq<int>>

  /** The map the program ships with (raycast.js:17-29): 11 rows of 15 cells,
      bordered by walls. */
  const MAP: Grid := [
    [1, 1, 1, 1, 1, 1, 1, 1, 1, 1, 1, 1, 1, 1, 1],
    [1, 0, 0, 0, 0, 0, 0, 0, 0, 0, 0, 0, 1, 0, 1],
    [1, 0, 0, 0, 0, 1, 0, 0, 0, 0, 0, 0, 1, 0, 1],
    [1, 1, 1, 1, 0, 0, 0, 0, 0, 0, 1, 0, 1, 0, 1],
    [1, 0, 0, 0, 0, 0, 0, 0, 0, 0, 1, 0, 1, 0, 1],
    [1, 0, 0, 0, 0, 1, 0, 0, 1, 1, 1, 1, 1, 0, 1],
    [1, 0, 1, 0, 0, 0, 0, 0, 0, 0, 0, 1, 0, 0, 1],
    [1, 0, 0, 0, 0, 0, 0, 0, 0, 0, 0, 0, 0, 0, 1],
    [1, 1, 1, 1, 1, 1, 0, 0, 0, 1, 1, 1, 1, 0, 1],
    [1, 0, 0, 0, 0, 0, 0, 0, 0, 0, 0, 0, 0, 0, 1],
    [1, 1, 1, 1, 1, 1, 1, 1, 1, 1, 1, 1, 1, 1, 1]
  ]

  /** A grid of MAP_NUM_ROWS rows of MAP_NUM_COLS cells. */
  predicate WellFormed(grid: Grid) {
    |grid| == MAP_NUM_ROWS && forall r :: 0 <= r < |grid| ==> |grid[r]| == MAP_NUM_COLS
  }

  /** The index of the tile containing coordinate `c`: `Math.floor(c / TILE_SIZE)`. */
  function TileIndex(c: real): (i: int)
    ensures i as real * TILE_SIZE <= c < i as real * TILE_SIZE + TILE_SIZE
  {
    (c / TILE_SIZE).Floor
  }

  datatype Option<T> = None | Some(value: T)

  /** What reading `grid[row][col]` yields in the program. */
  datatype Read = Value(v: int) | Undefined | Thrown

  /** The JavaScript read `grid[row][col]`: a missing column yields `undefined`,
      and a missing row makes the second subscript throw a TypeError. */
  function ReadCell(grid: Grid, row: int, col: int): (r: Read)
    ensures r.Thrown? <==> !(0 <= row < |grid|)
    ensures r.Value? <==> 0 <= row < |grid| && 0 <= col < |grid[row]|
    ensures r.Value? ==> r.v == grid[row][col]
  {
    if !(0 <= row < |grid|) then Thrown
    else if !(0 <= col < |grid[row]|) then Undefined
    else Value(grid[row][col])
  }

  /** `hasWallAt` exactly as written (raycast.js:32-39): `None` when the lookup
      throws, otherwise whether `grid[row][col] != 0`, where `undefined != 0`. */
  function HasWallAtAsWritten(grid: Grid, x: real, y: real): (r: Option<bool>)
    ensures !InWindow(x, y) ==> r == Some(true)
    ensures WellFormed(grid) && InWindow(x, y) ==> (r.None? <==> y == WINDOW_HEIGHT)
  {
    if x < 0.0 || x > WINDOW_WIDTH || y < 0.0 || y > WINDOW_HEIGHT then Some(true)
    else
      match ReadCell(grid, TileIndex(y), TileIndex(x))
      case Thrown => None
      case Undefined => Some(true)
      case Value(v) => Some(v != 0)
  }

  /** The lookup the rest of the model uses: `hasWallAt` with every cell that
      does not exist, including the missing row below the bottom edge, read as
      a wall. Outside the window everything is wall. */
  function HasWallAt(grid: Grid, x: real, y: real): (wall: bool)
    ensures !InWindow(x, y) ==> wall
    ensures WellFormed(grid) && InWindow(x, y) && x < WINDOW_WIDTH && y < WINDOW_HEIGHT ==>
              (wall <==> grid[TileIndex(y)][TileIndex(x)] != 0)
  {
    if x < 0.0 || x > WINDOW_WIDTH || y < 0.0 || y > WINDOW_HEIGHT then true
    else
      match ReadCell(grid, TileIndex(y), TileIndex(x))
      case Value(v) => v != 0
      case _ => true
  }

  /** Wherever the program's lookup does not throw, it agrees with the model's;
      on a well-formed grid it throws only on the bottom edge of the window. */
  lemma AsWrittenAgreesWhereDefined(grid: Grid, x: real, y: real)
    ensures HasWallAtAsWritten(grid, x, y).Some? ==>
              HasWallAtAsWritten(grid, x, y).value == HasWallAt(grid, x, y)
    ensures HasWallAtAsWritten(grid, x, y).None? ==> HasWallAt(grid, x, y)
  {
  }

  /** The lookup as written throws at an in-window point of the reference map. */
  lemma AsWrittenThrowsOnBottomEdge()
    ensures InWindow(100.0, WINDOW_HEIGHT)
    ensures HasWallAtAsWritten(MAP, 100.0, WINDOW_HEIGHT).None?
    ensures HasWallAt(MAP, 100.0, WINDOW_HEIGHT)
  {
    assert TileIndex(WINDOW_HEIGHT) == 11;
  }

  /** Both far edges of the window are walls: on the right edge the program
      reads `undefined` from a missing column, which compares unequal to zero. */
  lemma FarEdgesAreWall(grid: Grid, x: real, y: real)
    requires WellFormed(grid)
    requires InWindow(x, y)
    requires x == WINDOW_WIDTH || y == WINDOW_HEIGHT
    ensures HasWallAt(grid, x, y)
    ensures y < WINDOW_HEIGHT ==> HasWallAtAsWritten(grid, x, y) == Some(true)
  {
    if x == WINDOW_WIDTH {
      assert TileIndex(x) == MAP_NUM_COLS;
    }
    if y == WINDOW_HEIGHT {
      assert TileIndex(y) == MAP_NUM_ROWS;
    }
  }

  /** Two points of the same tile give the same answer. */
  lemma SameTileSameWall(grid: Grid, x1: real, y1: real, x2: real, y2: real)
    requires InWindow(x1, y1) && InWindow(x2, y2)
    requires TileIndex(x1) == TileIndex(x2) && TileIndex(y1) == TileIndex(y2)
    ensures HasWallAt(grid, x1, y1) == HasWallAt(grid, x2, y2)
  {
  }

  /** A point is open exactly when it lies strictly inside the far edges of the
      window and its tile holds zero. */
  lemma OpenIff(grid: Grid, x: real, y: real)
    requires WellFormed(grid)
    ensures !HasWallAt(grid, x, y) <==>
      && 0.0 <= x < WINDOW_WIDTH && 0.0 <= y < WINDOW_HEIGHT
      && grid[TileIndex(y)][TileIndex(x)] == 0
  {
    if InWindow(x, y) && (x == WINDOW_WIDTH || y == WINDOW_HEIGHT) {
      FarEdgesAreWall(grid, x, y);
    }
  }

  /** The reference map is well formed and walled all round, so every open
      point of it lies at least one tile inside the window. */
  lemma MapOpenPointsAreInterior(x: real, y: real)
    requires !HasWallAt(MAP, x, y)
    ensures WellFormed(MAP)
    ensures TILE_SIZE <= x < WINDOW_WIDTH - TILE_SIZE && TILE_SIZE <= y < WINDOW_HEIGHT - TILE_SIZE
  {
    assert WellFormed(MAP);
    OpenIff(MAP, x, y);
    var r, c := TileIndex(y), TileIndex(x);
    assert 0 <= r < MAP_NUM_ROWS && 0 <= c < MAP_NUM_COLS;
    assert MAP[r][c] == 0;
    assert forall j :: 0 <= j < MAP_NUM_COLS ==> MAP[0][j] == 1 && MAP[MAP_NUM_ROWS - 1][j] == 1;
    assert forall i :: 0 <= i < MAP_NUM_ROWS ==> MAP[i][0] == 1 && MAP[i][MAP_NUM_COLS - 1] == 1;
    assert 1 <= r < MAP_NUM_ROWS - 1 && 1 <= c < MAP_NUM_COLS - 1;
  }
}

=== FILE: player.dfy ===
/**
 The player (class `Player` of raycast.js): a position, a facing angle, two
 speeds and the two intents set from the keyboard. One `Update` per tick turns
 the player and moves it unless the move would end inside a wall.
 */
module Players {
  import opened Config
  import opened Geometry
  import opened GridWorld

  /** `turnDirection` is -1 (left), 0 or 1 (right); `walkDirection` is -1
      (back), 0 or 1 (forward). The keyboard handlers that set them are outside
      the model, so here they are plain inputs. */
  datatype Player = Player(
    x: real,
    y: real,
    rotationAngle: real,
    moveSpeed: real,
    rotationSpeed: real,
    turnDirection: int,
    walkDirection: int)

  /** The player the program starts with: the window centre, facing down the
      screen (angle PI / 2), standing still. */
  function InitialPlayer(): (p: Player)
    ensures !HasWallAt(MAP, p.x, p.y)
    ensures p.turnDirection == 0 && p.walkDirection == 0
  {
    var p := Player(WINDOW_WIDTH / 2.0, WINDOW_HEIGHT / 2.0, PI / 2.0, 2.0, 2.0 * (PI / 180.0), 0, 0);
    assert TileIndex(p.x) == 7 && TileIndex(p.y) == 5;
    p
  }

  /** The angle after this tick's turn; it is not normalised. */
  function TurnedAngle(p: Player): real {
    p.rotationAngle + p.turnDirection as real * p.rotationSpeed
  }

  /** The point the player would walk to this tick, along the turned angle. */
  function CandidateX(trig: Trig, p: Player): real {
    p.x + trig.cos(TurnedAngle(p)) * (p.walkDirection as real * p.moveSpeed)
  }

  function CandidateY(trig: Trig, p: Player): real {
    p.y + trig.sin(TurnedAngle(p)) * (p.walkDirection as real * p.moveSpeed)
  }

  /** `Player.update`: the turn always applies; the candidate position is taken
      only when it is not inside a wall, and a rejected move is dropped whole. */
  function Update(grid: Grid, trig: Trig, p: Player): (q: Player)
    ensures q.rotationAngle == p.rotationAngle + p.turnDirection as real * p.rotationSpeed
    ensures !HasWallAt(grid, CandidateX(trig, p), CandidateY(trig, p)) ==>
              q.x == CandidateX(trig, p) && q.y == CandidateY(trig, p)
    ensures HasWallAt(grid, CandidateX(trig, p), CandidateY(trig, p)) ==> q.x == p.x && q.y == p.y
    ensures q.moveSpeed == p.moveSpeed && q.rotationSpeed == p.rotationSpeed
    ensures q.turnDirection == p.turnDirection && q.walkDirection == p.walkDirection
    ensures !HasWallAt(grid, p.x, p.y) ==> !HasWallAt(grid, q.x, q.y)
  {
    var nx := CandidateX(trig, p);
    var ny := CandidateY(trig, p);
    var turned := p.(rotationAngle := TurnedAngle(p));
    if !HasWallAt(grid, nx, ny) then turned.(x := nx, y := ny) else turned
  }

  /** The intents held during one tick: (turnDirection, walkDirection). */
  datatype Intent = Intent(turn: int, walk: int)

  /** The player after one tick per intent, each tick setting the intents and
      then updating. */
  function Run(grid: Grid, trig: Trig, p: Player, intents: seq<Intent>): Player
    decreases |intents|
  {
    if |intents| == 0 then p
    else
      var i := intents[0];
      Run(grid, trig, Update(grid, trig, p.(turnDirection := i.turn, walkDirection := i.walk)), intents[1..])
  }

  /** Whatever the keys and however many ticks, a player that starts in an open
      cell never ends up inside a wall. */
  lemma {:induction false} RunStaysOpen(grid: Grid, trig: Trig, p: Player, intents: seq<Intent>)
    requires !HasWallAt(grid, p.x, p.y)
    ensures !HasWallAt(grid, Run(grid, trig, p, intents).x, Run(grid, trig, p, intents).y)
    decreases |intents|
  {
    if |intents| > 0 {
      var i := intents[0];
      var q := Update(grid, trig, p.(turnDirection := i.turn, walkDirection := i.walk));
      RunStaysOpen(grid, trig, q, intents[1..]);
    }
  }

  /** In particular the program's own player, on the program's own map, stays
      at least one tile away from the window edges forever. */
  lemma {:induction false} InitialPlayerStaysInside(trig: Trig, intents: seq<Intent>)
    ensures var q := Run(MAP, trig, InitialPlayer(), intents);
      TILE_SIZE <= q.x < WINDOW_WIDTH - TILE_SIZE && TILE_SIZE <= q.y < WINDOW_HEIGHT - TILE_SIZE
  {
    var q := Run(MAP, trig, InitialPlayer(), intents);
    RunStaysOpen(MAP, trig, InitialPlayer(), intents);
    MapOpenPointsAreInterior(q.x, q.y);
  }
}

=== FILE: projection.dfy ===
/**
 The per-strip arithmetic of `render3DProjectedWalls` (raycast.js:264-285):
 the fish-eye-corrected distance, the projected wall height, the strip's
 placement and its shade. Drawing the rectangle is left to the caller.
 */
module Projection {
  import opened Config
  import opened Geometry
  import opened Rays

  /** A projected height: `Unbounded` stands for the program's `Infinity`,
      which `TILE_SIZE / 0` produces when the corrected distance is zero. */
  datatype Height = Finite(value: real) | Unbounded

  /** One vertical strip of the 3D view: its left edge, its top edge, its
      height and its grey level. An unbounded strip has an unbounded top (the
      program's `-Infinity`): it fills its whole column. */
  datatype Strip = Strip(left: real, top: Height, height: Height, shade: int)

  /** The distance from the eye to the projection plane (raycast.js:270). */
  function PlaneDistance(trig: Trig): (d: real)
    requires trig.tan(FOV_ANGLE / 2.0) > 0.0
    ensures d > 0.0
    ensures d * trig.tan(FOV_ANGLE / 2.0) == WINDOW_WIDTH / 2.0
  {
    var t := trig.tan(FOV_ANGLE / 2.0);
    assert (WINDOW_WIDTH / 2.0) / t * t == WINDOW_WIDTH / 2.0;
    (WINDOW_WIDTH / 2.0) / t
  }

  /** The ray's distance measured along the player's facing direction, which
      removes the fish-eye distortion (raycast.js:267). */
  function CorrectedDistance(trig: Trig, ray: Ray, rotation: real): real {
    ray.distance * trig.cos(ray.rayAngle - rotation)
  }

  /** The projected wall height of a wall `corrected` away: a wall tile seen
      on the projection plane (raycast.js:273). */
  function WallHeight(corrected: real, plane: real): (h: Height)
    requires plane > 0.0
    ensures h.Unbounded? <==> corrected == 0.0
    ensures h.Finite? ==> h.value * corrected == TILE_SIZE * plane
  {
    if corrected == 0.0 then Unbounded
    else
      assert (TILE_SIZE / corrected) * plane * corrected == TILE_SIZE * plane by {
        assert (TILE_SIZE / corrected) * corrected == TILE_SIZE;
      }
      Finite((TILE_SIZE / corrected) * plane)
  }

  /** The grey level: vertical hits are drawn brighter than horizontal ones
      (raycast.js:278). */
  function Shade(ray: Ray): (c: int)
    ensures c == 255 || c == 200
    ensures c == 255 <==> ray.wasHitVertical
  {
    if ray.wasHitVertical then 255 else 200
  }

  /** The top edge of a strip of finite height: the strip is centred on the
      horizon, half the window down (raycast.js:283). */
  function StripTop(height: real): (top: real)
    ensures top + height == WINDOW_HEIGHT - top
  {
    (WINDOW_HEIGHT / 2.0) - (height / 2.0)
  }

  /** The top edge of a strip of the given height. */
  function TopOf(h: Height): (top: Height)
    ensures top.Unbounded? <==> h.Unbounded?
    ensures h.Finite? ==> top.value + h.value == WINDOW_HEIGHT - top.value
  {
    if h.Finite? then Finite(StripTop(h.value)) else Unbounded
  }

  /** Strip `i` of the view, for ray `ray` of a player facing `rotation`. */
  function ProjectRay(trig: Trig, ray: Ray, rotation: real, i: nat): (s: Strip)
    requires trig.tan(FOV_ANGLE / 2.0) > 0.0
    ensures s.left == (i * WALL_STRIP_WIDTH) as real
    ensures s.height.Unbounded? <==> CorrectedDistance(trig, ray, rotation) == 0.0
    ensures s.height.Finite? ==>
              s.height.value * CorrectedDistance(trig, ray, rotation) == TILE_SIZE * PlaneDistance(trig)
    ensures s.top.Unbounded? <==> s.height.Unbounded?
    ensures s.height.Finite? ==> s.top.value + s.height.value == WINDOW_HEIGHT - s.top.value
    ensures s.shade == 255 <==> ray.wasHitVertical
  {
    var h := WallHeight(CorrectedDistance(trig, ray, rotation), PlaneDistance(trig));
    Strip((i * WALL_STRIP_WIDTH) as real, TopOf(h), h, Shade(ray))
  }

  /** All strips of one frame, one per ray, left to right. */
  function ProjectAll(trig: Trig, rays: seq<Ray>, rotation: real): (strips: seq<Strip>)
    requires trig.tan(FOV_ANGLE / 2.0) > 0.0
    ensures |strips| == |rays|
    ensures forall i :: 0 <= i < |rays| ==> strips[i] == ProjectRay(trig, rays[i], rotation, i)
  {
    seq(|rays|, i requires 0 <= i < |rays| => ProjectRay(trig, rays[i], rotation, i))
  }

  /** The nearer of two walls in front of the player is drawn at least as tall
      as the farther one. */
  lemma NearerIsTaller(c1: real, c2: real, plane: real)
    requires plane > 0.0
    requires 0.0 < c1 <= c2
    ensures WallHeight(c1, plane).value >= WallHeight(c2, plane).value
  {
    var h1 := WallHeight(c1, plane).value;
    var h2 := WallHeight(c2, plane).value;
    assert h1 * c1 == h2 * c2;
    assert h2 > 0.0 by {
      assert h2 * c2 == TILE_SIZE * plane;
      assert TILE_SIZE * plane > 0.0;
    }
    assert h2 * c2 >= h2 * c1;
  }

  /** The strips of a full fan tile the window from left to right without gap
      or overlap: each starts where the previous one ends, and the last one
      ends on the right edge of the window. */
  lemma StripsTileWindow(trig: Trig, rays: seq<Ray>, rotation: real)
    requires trig.tan(FOV_ANGLE / 2.0) > 0.0
    requires |rays| == NUM_RAYS
    ensures var strips := ProjectAll(trig, rays, rotation);
      && strips[0].left == 0.0
      && (forall i :: 0 < i < |strips| ==> strips[i].left == strips[i - 1].left + WALL_STRIP_WIDTH as real)
      && strips[|strips| - 1].left + WALL_STRIP_WIDTH as real == WINDOW_WIDTH
  {
    assert NUM_RAYS == 96;
  }
}

=== FILE: ray_caster.dfy ===
/**
 Casting one ray (`Ray.cast`, raycast.js:105-202): run both grid-line searches
 from the player, measure each, and keep the nearer hit. A search that found no
 wall measures `Number.MAX_VALUE`; the vertical hit wins only when strictly
 nearer, so a tie goes to the horizontal hit.
 */
module RayCaster {
  import opened Config
  import opened Geometry
  import opened GridWorld
  import opened Rays
  import opened Traversal

  /** The distance a search contributes to the comparison. */
  function HitDistance(trig: Trig, px: real, py: real, h: WallHit): real
    requires SqrtIsRoot(trig)
  {
    if h.Found? then Distance(trig, px, py, h.x, h.y) else MAX_VALUE
  }

  /** The hit coordinates a search leaves behind: zero when nothing was found,
      as the program initialises them. */
  function HitX(h: WallHit): real {
    if h.Found? then h.x else 0.0
  }

  function HitY(h: WallHit): real {
    if h.Found? then h.y else 0.0
  }

  /** The winner of the two searches. */
  datatype Choice = Choice(x: real, y: real, distance: real, vertical: bool)

  /** The selection rule (raycast.js:190-201). */
  function Select(h: WallHit, hd: real, v: WallHit, vd: real): (c: Choice)
    ensures c.vertical <==> vd < hd
    ensures c.distance <= hd && c.distance <= vd
    ensures c.distance == hd || c.distance == vd
    ensures hd == vd ==> !c.vertical
    ensures c.vertical ==> c.x == HitX(v) && c.y == HitY(v) && c.distance == vd
    ensures !c.vertical ==> c.x == HitX(h) && c.y == HitY(h) && c.distance == hd
  {
    if vd < hd then Choice(HitX(v), HitY(v), vd, true)
    else Choice(HitX(h), HitY(h), hd, false)
  }

  /** A ray built by the constructor: its flags are those of its angle. */
  predicate WellClassified(ray: Ray) {
    ray.facing == Classify(ray.rayAngle)
  }

  function HorizontalHit(grid: Grid, trig: Trig, px: real, py: real, ray: Ray): WallHit
    requires WellClassified(ray)
  {
    HorizontalSearch(grid, px, py, ray.facing, trig.tan(ray.rayAngle))
  }

  function VerticalHit(grid: Grid, trig: Trig, px: real, py: real, ray: Ray): WallHit
    requires WellClassified(ray)
  {
    VerticalSearch(grid, px, py, ray.facing, trig.tan(ray.rayAngle))
  }

  /** The point whose cell the winning search found to be a wall: one unit
      above a horizontal hit when facing up, one unit left of a vertical hit
      when facing left. */
  function ProbedX(r: Ray): real {
    if r.wasHitVertical && r.facing.left then r.wallHitX - 1.0 else r.wallHitX
  }

  function ProbedY(r: Ray): real {
    if !r.wasHitVertical && r.facing.up then r.wallHitY - 1.0 else r.wallHitY
  }

  /** `Ray.cast`, from the player at (px, py). */
  function Cast(grid: Grid, trig: Trig, px: real, py: real, ray: Ray): (r: Ray)
    requires SqrtIsRoot(trig)
    requires WellClassified(ray)
    ensures r.rayAngle == ray.rayAngle && r.facing == ray.facing
    ensures var hd := HitDistance(trig, px, py, HorizontalHit(grid, trig, px, py, ray));
            var vd := HitDistance(trig, px, py, VerticalHit(grid, trig, px, py, ray));
            && (r.wasHitVertical <==> vd < hd)
            && r.distance <= hd && r.distance <= vd
            && (r.distance == hd || r.distance == vd)
    ensures r.wasHitVertical ==>
              && r.wallHitX == HitX(VerticalHit(grid, trig, px, py, ray))
              && r.wallHitY == HitY(VerticalHit(grid, trig, px, py, ray))
    ensures !r.wasHitVertical ==>
              && r.wallHitX == HitX(HorizontalHit(grid, trig, px, py, ray))
              && r.wallHitY == HitY(HorizontalHit(grid, trig, px, py, ray))
    ensures HorizontalHit(grid, trig, px, py, ray).NotFound? &&
            VerticalHit(grid, trig, px, py, ray).NotFound? ==>
              r.distance == MAX_VALUE && r.wallHitX == 0.0 && r.wallHitY == 0.0 && !r.wasHitVertical
  {
    var h := HorizontalHit(grid, trig, px, py, ray);
    var v := VerticalHit(grid, trig, px, py, ray);
    var c := Select(h, HitDistance(trig, px, py, h), v, HitDistance(trig, px, py, v));
    ray.(wallHitX := c.x, wallHitY := c.y, distance := c.distance, wasHitVertical := c.vertical)
  }

  /** A ray of the given angle, constructed and cast. */
  function CastRay(grid: Grid, trig: Trig, px: real, py: real, angle: real): (r: Ray)
    requires SqrtIsRoot(trig)
    ensures 0.0 <= r.rayAngle < TWO_PI && IsWholeTurns(r.rayAngle - angle)
    ensures WellClassified(r)
  {
    Cast(grid, trig, px, py, NewRay(angle))
  }

  /** Whenever the cast distance is below the sentinel, the reported point is
      a touch point inside the window at that Euclidean distance from the
      player, and the cell the winning search probed there is a wall. */
  lemma CastReportsWall(grid: Grid, trig: Trig, px: real, py: real, ray: Ray)
    requires SqrtIsRoot(trig)
    requires WellClassified(ray)
    ensures var r := Cast(grid, trig, px, py, ray);
      r.distance < MAX_VALUE ==>
        && InWindow(r.wallHitX, r.wallHitY)
        && HasWallAt(grid, ProbedX(r), ProbedY(r))
        && r.distance == Distance(trig, px, py, r.wallHitX, r.wallHitY)
  {
    var r := Cast(grid, trig, px, py, ray);
    if r.distance < MAX_VALUE {
      if r.wasHitVertical {
        var v := VerticalHit(grid, trig, px, py, ray);
        assert v.Found?;
        assert r.wallHitX == v.x && r.wallHitY == v.y;
      } else {
        var h := HorizontalHit(grid, trig, px, py, ray);
        assert h.Found?;
        assert r.wallHitX == h.x && r.wallHitY == h.y;
      }
    }
  }

  /** On an exact tie between two found walls the horizontal hit is kept. */
  lemma TieGoesHorizontal(grid: Grid, trig: Trig, px: real, py: real, ray: Ray)
    requires SqrtIsRoot(trig)
    requires WellClassified(ray)
    requires HorizontalHit(grid, trig, px, py, ray).Found?
    requires HitDistance(trig, px, py, HorizontalHit(grid, trig, px, py, ray)) ==
             HitDistance(trig, px, py, VerticalHit(grid, trig, px, py, ray))
    ensures var r := Cast(grid, trig, px, py, ray);
      && !r.wasHitVertical
      && r.wallHitX == HorizontalHit(grid, trig, px, py, ray).x
      && r.wallHitY == HorizontalHit(grid, trig, px, py, ray).y
  {
  }

  lemma SquareBound(a: real, m: real)
    requires 0.0 <= m && -m <= a <= m
    ensures a * a <= m * m
  {
    if a >= 0.0 {
      assert a * a <= a * m;
      assert a * m <= m * m;
    } else {
      assert a * a == (-a) * (-a);
      assert (-a) * (-a) <= (-a) * m;
      assert (-a) * m <= m * m;
    }
  }

  /** Between two points of the window the distance is at most the window's
      diagonal, and so far below the sentinel. */
  lemma DistanceInWindow(trig: Trig, x1: real, y1: real, x2: real, y2: real)
    requires SqrtIsRoot(trig)
    requires InWindow(x1, y1) && InWindow(x2, y2)
    ensures var d := Distance(trig, x1, y1, x2, y2);
      d * d <= WINDOW_WIDTH * WINDOW_WIDTH + WINDOW_HEIGHT * WINDOW_HEIGHT && d < MAX_VALUE
  {
    RootBound(Distance(trig, x1, y1, x2, y2), x2 - x1, y2 - y1);
  }

  /** A root of `a * a + b * b`, for `a` and `b` no wider than the window, is
      at most the window's diagonal, and so at most its half-perimeter. */
  lemma RootBound(d: real, a: real, b: real)
    requires 0.0 <= d && d * d == a * a + b * b
    requires -WINDOW_WIDTH <= a <= WINDOW_WIDTH && -WINDOW_HEIGHT <= b <= WINDOW_HEIGHT
    ensures d * d <= WINDOW_WIDTH * WINDOW_WIDTH + WINDOW_HEIGHT * WINDOW_HEIGHT
    ensures d <= WINDOW_WIDTH + WINDOW_HEIGHT
  {
    SquareBound(a, WINDOW_WIDTH);
    SquareBound(b, WINDOW_HEIGHT);
  }

  /** From a player inside the window, a search that found a wall always beats
      one that did not. */
  lemma FoundBeatsMissed(grid: Grid, trig: Trig, px: real, py: real, ray: Ray)
    requires SqrtIsRoot(trig)
    requires WellClassified(ray)
    requires InWindow(px, py)
    ensures var r := Cast(grid, trig, px, py, ray);
      var h := HorizontalHit(grid, trig, px, py, ray);
      var v := VerticalHit(grid, trig, px, py, ray);
      && (h.Found? && v.NotFound? ==> !r.wasHitVertical && r.wallHitX == h.x && r.wallHitY == h.y)
      && (h.NotFound? && v.Found? ==> r.wasHitVertical && r.wallHitX == v.x && r.wallHitY == v.y)
      && (h.Found? || v.Found? ==> r.distance < MAX_VALUE)
  {
    var h := HorizontalHit(grid, trig, px, py, ray);
    var v := VerticalHit(grid, trig, px, py, ray);
    var hd := HitDistance(trig, px, py, h);
    var vd := HitDistance(trig, px, py, v);
    if h.Found? {
      DistanceInWindow(trig, px, py, h.x, h.y);
      assert hd < MAX_VALUE;
    } else {
      assert hd == MAX_VALUE;
    }
    if v.Found? {
      DistanceInWindow(trig, px, py, v.x, v.y);
      assert vd < MAX_VALUE;
    } else {
      assert vd == MAX_VALUE;
    }
  }

  /** 1191 squared exceeds 960^2 + 704^2 = 1417216. */
  lemma RootBelow(d: real)
    requires 0.0 <= d && d * d <= 1417216.0
    ensures d <= 1191.0
  {
  }

  /** Two points of the window are at most a diagonal apart: 1191 is the
      diagonal sqrt(960^2 + 704^2) = 1190.46... rounded up. */
  lemma WithinDiagonal(trig: Trig, px: real, py: real, x: real, y: real)
    requires SqrtIsRoot(trig)
    requires InWindow(px, py) && InWindow(x, y)
    ensures Distance(trig, px, py, x, y) <= 1191.0
  {
    DistanceInWindow(trig, px, py, x, y);
    assert WINDOW_WIDTH * WINDOW_WIDTH + WINDOW_HEIGHT * WINDOW_HEIGHT == 1417216.0;
    RootBelow(Distance(trig, px, py, x, y));
  }

  /** From a player inside the window every cast that hits a wall reports a
      distance no longer than the window's diagonal. */
  lemma CastWithinDiagonal(grid: Grid, trig: Trig, px: real, py: real, ray: Ray)
    requires SqrtIsRoot(trig)
    requires WellClassified(ray)
    requires InWindow(px, py)
    ensures var r := Cast(grid, trig, px, py, ray);
      r.distance < MAX_VALUE ==> r.distance <= 1191.0
  {
    var r := Cast(grid, trig, px, py, ray);
    CastReportsWall(grid, trig, px, py, ray);
    if r.distance < MAX_VALUE {
      WithinDiagonal(trig, px, py, r.wallHitX, r.wallHitY);
    }
  }
}

=== FILE: ray_set.dfy ===
/**
 The fan of rays cast each frame (`castAllRays`, raycast.js:238-250): NUM_RAYS
 rays spread evenly over the field of view, starting half a field of view to
 the left of the player's facing angle, each constructed from its own angle
 and cast from the player's position.
 */
module RaySet {
  import opened Config
  import opened Geometry
  import opened GridWorld
  import opened Players
  import opened Rays
  import opened RayCaster

  /** The angle between two neighbouring rays. */
  const ANGLE_STEP: real := FOV_ANGLE / NUM_RAYS as real

  /** The (unnormalised) angle of ray `i` of the fan around `rotation`. */
  function FanAngle(rotation: real, i: int): real {
    rotation - FOV_ANGLE / 2.0 + i as real * ANGLE_STEP
  }

  /** Advancing the running angle by one step reaches the next ray's angle. */
  lemma FanAngleNext(rotation: real, i: int)
    ensures FanAngle(rotation, i) + ANGLE_STEP == FanAngle(rotation, i + 1)
  {
  }

  /** `castAllRays`: the angle starts at the left edge of the field of view and
      is advanced by one step after each ray. */
  method CastAllRays(grid: Grid, trig: Trig, p: Player) returns (rays: seq<Ray>)
    requires SqrtIsRoot(trig)
    ensures |rays| == NUM_RAYS
    ensures forall i :: 0 <= i < |rays| ==>
              rays[i] == CastRay(grid, trig, p.x, p.y, FanAngle(p.rotationAngle, i))
  {
    var rayAngle := p.rotationAngle - FOV_ANGLE / 2.0;
    rays := [];
    var i := 0;
    while i < NUM_RAYS
      invariant 0 <= i <= NUM_RAYS
      invariant |rays| == i
      invariant rayAngle == FanAngle(p.rotationAngle, i)
      invariant forall j :: 0 <= j < i ==>
                  rays[j] == CastRay(grid, trig, p.x, p.y, FanAngle(p.rotationAngle, j))
    {
      var ray := CastRay(grid, trig, p.x, p.y, rayAngle);
      rays := rays + [ray];
      FanAngleNext(p.rotationAngle, i);
      rayAngle := rayAngle + ANGLE_STEP;
      i := i + 1;
    }
  }

  /** Each ray depends only on its own angle: a ray of one fan equals the ray
      of any other fan, from the same point, whose angle differs from it by a
      whole number of turns. In particular a player who has turned a whole
      number of times sees the same fan. */
  lemma FanTurnInvariant(grid: Grid, trig: Trig, px: real, py: real, rotation: real, i: int, k: int)
    requires SqrtIsRoot(trig)
    ensures CastRay(grid, trig, px, py, FanAngle(rotation + k as real * TWO_PI, i)) ==
            CastRay(grid, trig, px, py, FanAngle(rotation, i))
  {
    var a := FanAngle(rotation, i);
    FanAngleTurn(rotation, i, k);
    NormalizeAngleTurnInvariant(a, k);
  }

  lemma FanAngleTurn(rotation: real, i: int, k: int)
    ensures FanAngle(rotation + k as real * TWO_PI, i) == FanAngle(rotation, i) + k as real * TWO_PI
  {
  }

  /** Turning the player by one angle step shifts the fan by one ray: ray
      `i + 1` before the turn is ray `i` after it. */
  lemma FanShift(grid: Grid, trig: Trig, px: real, py: real, rotation: real, i: int)
    requires SqrtIsRoot(trig)
    ensures CastRay(grid, trig, px, py, FanAngle(rotation, i + 1)) ==
            CastRay(grid, trig, px, py, FanAngle(rotation + ANGLE_STEP, i))
  {
    FanAngleShift(rotation, i);
  }

  lemma FanAngleShift(rotation: real, i: int)
    ensures FanAngle(rotation, i + 1) == FanAngle(rotation + ANGLE_STEP, i)
  {
  }

  /** The fan spans the field of view: the first ray points half a field of
      view left of the facing angle, and one more step past the last ray would
      point half a field of view to the right. */
  lemma FanSpansFieldOfView(rotation: real)
    ensures FanAngle(rotation, 0) == rotation - FOV_ANGLE / 2.0
    ensures FanAngle(rotation, NUM_RAYS) == rotation + FOV_ANGLE / 2.0
    ensures forall i: int {:trigger FanAngle(rotation, i)} ::
              FanAngle(rotation, i) < FanAngle(rotation, i + 1)
  {
  }
}

=== FILE: rays.dfy ===
/**
 A ray before it is cast (the `Ray` constructor of raycast.js:91-103): its
 normalised angle, the four facing flags derived from it, and the
 sign-corrected steps the two grid-line searches take (raycast.js:115-127 and
 151-163).
 */
module Rays {
  import opened Config
  import opened Geometry

  /** Which half-planes the ray points into. */
  datatype Facing = Facing(down: bool, up: bool, right: bool, left: bool)

  /** The facing flags of an angle: down on (0, PI), right before PI / 2 or
      after 3 PI / 2; up and left are the complements. */
  function Classify(angle: real): (f: Facing)
    ensures f.down != f.up && f.right != f.left
    ensures 0.0 <= angle < TWO_PI ==> (f.up <==> angle == 0.0 || PI <= angle)
    ensures 0.0 <= angle < TWO_PI ==> (f.left <==> 0.5 * PI <= angle <= 1.5 * PI)
  {
    var down := angle > 0.0 && angle < PI;
    var right := angle < 0.5 * PI || angle > 1.5 * PI;
    Facing(down, !down, right, !right)
  }

  /** A ray of the fan: its hit is filled in by the caster. */
  datatype Ray = Ray(
    rayAngle: real,
    wallHitX: real,
    wallHitY: real,
    distance: real,
    wasHitVertical: bool,
    facing: Facing)

  /** The `Ray` constructor: normalises the angle and classifies it. */
  function NewRay(angle: real): (r: Ray)
    ensures 0.0 <= r.rayAngle < TWO_PI && IsWholeTurns(r.rayAngle - angle)
    ensures r.facing.down <==> 0.0 < r.rayAngle < PI
    ensures r.facing.right <==> r.rayAngle < 0.5 * PI || 1.5 * PI < r.rayAngle
    ensures r.facing.down != r.facing.up && r.facing.right != r.facing.left
    ensures r.wallHitX == 0.0 && r.wallHitY == 0.0 && r.distance == 0.0 && !r.wasHitVertical
  {
    var a := NormalizeAngle(angle);
    Ray(a, 0.0, 0.0, 0.0, false, Classify(a))
  }

  /** The program's two-stage sign fix: negate a positive step when the ray
      points toward decreasing coordinates, then negate a negative step when it
      points toward increasing ones. The magnitude never changes, and a step
      whose sign already agrees is kept as it is. */
  function CorrectSign(step: real, towardNegative: bool, towardPositive: bool): (s: real)
    requires towardNegative != towardPositive
    ensures s == step || s == -step
    ensures towardNegative ==> s <= 0.0
    ensures towardPositive ==> s >= 0.0
    ensures (towardNegative ==> step <= 0.0) && (towardPositive ==> step >= 0.0) ==> s == step
  {
    var s1 := if towardNegative && step > 0.0 then -step else step;
    if towardPositive && s1 < 0.0 then -s1 else s1
  }

  /** The step of each search, as a vector. */
  datatype Step = Step(dx: real, dy: real)

  /** Horizontal-line search: one tile along y, `TILE_SIZE / tan` along x
      (`t` is the tangent of the ray angle, non-zero). */
  function HorizontalStep(f: Facing, t: real): (s: Step)
    requires f.down != f.up && f.right != f.left
    requires t != 0.0
    ensures s.dy == -TILE_SIZE <==> f.up
    ensures s.dy == TILE_SIZE <==> f.down
    ensures f.right ==> s.dx >= 0.0
    ensures f.left ==> s.dx <= 0.0
    ensures s.dx == TILE_SIZE / t || s.dx == -(TILE_SIZE / t)
  {
    Step(CorrectSign(TILE_SIZE / t, f.left, f.right), if f.up then -TILE_SIZE else TILE_SIZE)
  }

  /** Vertical-line search: one tile along x, `TILE_SIZE * tan` along y. */
  function VerticalStep(f: Facing, t: real): (s: Step)
    requires f.down != f.up && f.right != f.left
    ensures s.dx == -TILE_SIZE <==> f.left
    ensures s.dx == TILE_SIZE <==> f.right
    ensures f.down ==> s.dy >= 0.0
    ensures f.up ==> s.dy <= 0.0
    ensures s.dy == TILE_SIZE * t || s.dy == -(TILE_SIZE * t)
  {
    Step(if f.left then -TILE_SIZE else TILE_SIZE, CorrectSign(TILE_SIZE * t, f.up, f.down))
  }

  /** The tangent has the sign the facing quadrant gives it: non-negative when
      the ray points down-right or up-left, non-positive otherwise. */
  predicate TanAgrees(f: Facing, t: real) {
    (f.down == f.right ==> 0.0 <= t) && (f.down != f.right ==> t <= 0.0)
  }

  /** When the tangent agrees with the facing quadrant, the sign-corrected
      steps run along the ray's line, whose slope is the tangent: stepping
      always advances along the ray. */
  lemma HorizontalStepFollowsRay(f: Facing, t: real)
    requires f.down != f.up && f.right != f.left
    requires TanAgrees(f, t)
    requires t != 0.0
    ensures HorizontalStep(f, t).dx * t == HorizontalStep(f, t).dy
  {
    if f.down == f.right {
      assert 0.0 < TILE_SIZE / t;
    } else {
      assert TILE_SIZE / t < 0.0;
    }
    assert (TILE_SIZE / t) * t == TILE_SIZE;
  }

  lemma VerticalStepFollowsRay(f: Facing, t: real)
    requires f.down != f.up && f.right != f.left
    requires TanAgrees(f, t)
    ensures VerticalStep(f, t).dy == VerticalStep(f, t).dx * t
  {
  }
}

=== FILE: traversal.dfy ===
/**
 The two grid-line searches of `Ray.cast` (raycast.js:109-179). Both walk the
 same way: from a first touch point, step by a fixed vector of which one
 coordinate is exactly one tile, probe the cell just beyond each crossed grid
 line, and stop at the first wall or when the touch point leaves the window.
 */
module Traversal {
  import opened Config
  import opened GridWorld
  import opened Rays

  /** The outcome of one search: the touch point at which a wall was found. */
  datatype WallHit = NotFound | Found(x: real, y: real)

  /** One coordinate of the step advances by exactly one tile. */
  predicate TileStride(s: Step) {
    s.dy == TILE_SIZE || s.dy == -TILE_SIZE || s.dx == TILE_SIZE || s.dx == -TILE_SIZE
  }

  /** `c` lies on a grid line. */
  predicate OnGridLine(c: real) {
    TileIndex(c) as real * TILE_SIZE == c
  }

  /** How many more grid lines a coordinate moving by `dc` can cross before it
      leaves [0, limit]. */
  function LinesAhead(c: real, dc: real, limit: real): int {
    if dc > 0.0 then ((limit - c) / TILE_SIZE).Floor else (c / TILE_SIZE).Floor
  }

  /** The termination measure of a walk: the lines left along the coordinate
      that advances by a whole tile. */
  function LinesLeft(tx: real, ty: real, s: Step): int {
    if s.dy == TILE_SIZE || s.dy == -TILE_SIZE then LinesAhead(ty, s.dy, WINDOW_HEIGHT)
    else LinesAhead(tx, s.dx, WINDOW_WIDTH)
  }

  /** Inside the window a step leaves one grid line fewer ahead, and a
      coordinate on a grid line that moves by a whole tile stays on one. */
  lemma StepCrossesOneLine(tx: real, ty: real, s: Step)
    requires TileStride(s)
    requires InWindow(tx, ty)
    ensures 0 <= LinesLeft(tx, ty, s)
    ensures LinesLeft(tx + s.dx, ty + s.dy, s) == LinesLeft(tx, ty, s) - 1
    ensures (s.dx == TILE_SIZE || s.dx == -TILE_SIZE) && OnGridLine(tx) ==> OnGridLine(tx + s.dx)
    ensures (s.dy == TILE_SIZE || s.dy == -TILE_SIZE) && OnGridLine(ty) ==> OnGridLine(ty + s.dy)
  {
    if s.dy == TILE_SIZE || s.dy == -TILE_SIZE {
      CoordinateCrossesOneLine(ty, s.dy, WINDOW_HEIGHT);
    } else {
      CoordinateCrossesOneLine(tx, s.dx, WINDOW_WIDTH);
    }
    if s.dx == TILE_SIZE || s.dx == -TILE_SIZE {
      CoordinateCrossesOneLine(tx, s.dx, WINDOW_WIDTH);
    }
  }

  lemma CoordinateCrossesOneLine(c: real, dc: real, limit: real)
    requires 0.0 <= c <= limit
    ensures dc == TILE_SIZE || dc == -TILE_SIZE ==> 0 <= LinesAhead(c, dc, limit)
    ensures dc == TILE_SIZE || dc == -TILE_SIZE ==>
              LinesAhead(c + dc, dc, limit) == LinesAhead(c, dc, limit) - 1
    ensures dc == TILE_SIZE || dc == -TILE_SIZE ==> OnGridLine(c) ==> OnGridLine(c + dc)
  {
    if dc == TILE_SIZE {
      FloorShift((limit - c) / TILE_SIZE, -1);
      FloorShift(c / TILE_SIZE, 1);
      assert (limit - (c + dc)) / TILE_SIZE == (limit - c) / TILE_SIZE + (-1) as real;
      assert (c + dc) / TILE_SIZE == c / TILE_SIZE + 1 as real;
    } else if dc == -TILE_SIZE {
      FloorShift(c / TILE_SIZE, -1);
      assert (c + dc) / TILE_SIZE == c / TILE_SIZE + (-1) as real;
    }
  }

  lemma FloorShift(z: real, n: int)
    ensures (z + n as real).Floor == z.Floor + n
  {
  }

  /** The walk loop shared by both searches. `probe` is the offset from the
      touch point to the point whose cell is sampled. */
  function Walk(grid: Grid, tx: real, ty: real, s: Step, probe: Step): (h: WallHit)
    requires TileStride(s)
    ensures h.Found? ==> InWindow(h.x, h.y) && HasWallAt(grid, h.x + probe.dx, h.y + probe.dy)
    ensures h.Found? ==> (0.0 <= s.dx ==> tx <= h.x) && (s.dx <= 0.0 ==> h.x <= tx)
    ensures h.Found? ==> (0.0 <= s.dy ==> ty <= h.y) && (s.dy <= 0.0 ==> h.y <= ty)
    ensures h.Found? && (s.dy == TILE_SIZE || s.dy == -TILE_SIZE) && OnGridLine(ty) ==> OnGridLine(h.y)
    ensures h.Found? && (s.dx == TILE_SIZE || s.dx == -TILE_SIZE) && OnGridLine(tx) ==> OnGridLine(h.x)
    decreases LinesLeft(tx, ty, s)
  {
    if !InWindow(tx, ty) then NotFound
    else if HasWallAt(grid, tx + probe.dx, ty + probe.dy) then Found(tx, ty)
    else
      StepCrossesOneLine(tx, ty, s);
      Walk(grid, tx + s.dx, ty + s.dy, s, probe)
  }

  /** The number of steps the walk takes before it stops. */
  function WalkSteps(grid: Grid, tx: real, ty: real, s: Step, probe: Step): (n: nat)
    requires TileStride(s)
    ensures !InWindow(tx, ty) ==> n == 0
    ensures InWindow(tx, ty) ==> n <= LinesLeft(tx, ty, s) + 1
    decreases LinesLeft(tx, ty, s)
  {
    if !InWindow(tx, ty) then 0
    else if HasWallAt(grid, tx + probe.dx, ty + probe.dy) then 0
    else 1 + WalkSteps(grid, tx + s.dx, ty + s.dy, s, probe)
  }

  /** The `k`-th touch point coordinate: `k` steps of `d` from `c`. */
  function Touch(c: real, d: real, k: nat): real {
    if k == 0 then c else Touch(c, d, k - 1) + d
  }

  lemma {:induction false} TouchShift(c: real, d: real, k: nat)
    ensures Touch(c + d, d, k) == Touch(c, d, k + 1)
  {
    if k > 0 {
      TouchShift(c, d, k - 1);
    }
  }

  /** The walk stops at a touch point. */
  predicate Stops(grid: Grid, x: real, y: real, probe: Step) {
    !InWindow(x, y) || HasWallAt(grid, x + probe.dx, y + probe.dy)
  }

  /** The walk stops at the touch point reached after `WalkSteps` steps. */
  lemma {:induction false} WalkStopsAtLast(grid: Grid, tx: real, ty: real, s: Step, probe: Step)
    requires TileStride(s)
    ensures var k := WalkSteps(grid, tx, ty, s, probe);
      Stops(grid, Touch(tx, s.dx, k), Touch(ty, s.dy, k), probe)
    decreases LinesLeft(tx, ty, s)
  {
    if !Stops(grid, tx, ty, probe) {
      StepCrossesOneLine(tx, ty, s);
      var k' := WalkSteps(grid, tx + s.dx, ty + s.dy, s, probe);
      assert WalkSteps(grid, tx, ty, s, probe) == k' + 1;
      WalkStopsAtLast(grid, tx + s.dx, ty + s.dy, s, probe);
      TouchShift(tx, s.dx, k');
      TouchShift(ty, s.dy, k');
    }
  }

  /** No touch point before that one stops the walk. */
  lemma {:induction false} WalkPassesEarlier(grid: Grid, tx: real, ty: real, s: Step, probe: Step, j: nat)
    requires TileStride(s)
    requires j < WalkSteps(grid, tx, ty, s, probe)
    ensures !Stops(grid, Touch(tx, s.dx, j), Touch(ty, s.dy, j), probe)
    decreases LinesLeft(tx, ty, s)
  {
    assert !Stops(grid, tx, ty, probe);
    StepCrossesOneLine(tx, ty, s);
    if j > 0 {
      assert j - 1 < WalkSteps(grid, tx + s.dx, ty + s.dy, s, probe);
      WalkPassesEarlier(grid, tx + s.dx, ty + s.dy, s, probe, j - 1);
      TouchShift(tx, s.dx, j - 1);
      TouchShift(ty, s.dy, j - 1);
    }
  }

  /** The walk reports the touch point where it stops exactly when that point
      is inside the window. */
  lemma {:induction false} WalkReportsLast(grid: Grid, tx: real, ty: real, s: Step, probe: Step)
    requires TileStride(s)
    ensures var k := WalkSteps(grid, tx, ty, s, probe);
      Walk(grid, tx, ty, s, probe) ==
        if InWindow(Touch(tx, s.dx, k), Touch(ty, s.dy, k))
        then Found(Touch(tx, s.dx, k), Touch(ty, s.dy, k)) else NotFound
    decreases LinesLeft(tx, ty, s)
  {
    if !Stops(grid, tx, ty, probe) {
      StepCrossesOneLine(tx, ty, s);
      var k' := WalkSteps(grid, tx + s.dx, ty + s.dy, s, probe);
      assert WalkSteps(grid, tx, ty, s, probe) == k' + 1;
      assert Walk(grid, tx, ty, s, probe) == Walk(grid, tx + s.dx, ty + s.dy, s, probe);
      WalkReportsLast(grid, tx + s.dx, ty + s.dy, s, probe);
      TouchShift(tx, s.dx, k');
      TouchShift(ty, s.dy, k');
    }
  }

  /** The walk visits the touch points in order and stops at the first one that
      is outside the window or whose probed cell is a wall; it reports that
      point exactly when it is inside the window. */
  lemma WalkIsFirstStop(grid: Grid, tx: real, ty: real, s: Step, probe: Step)
    requires TileStride(s)
    ensures var k := WalkSteps(grid, tx, ty, s, probe);
      && Stops(grid, Touch(tx, s.dx, k), Touch(ty, s.dy, k), probe)
      && (forall j :: 0 <= j < k ==> !Stops(grid, Touch(tx, s.dx, j), Touch(ty, s.dy, j), probe))
      && Walk(grid, tx, ty, s, probe) ==
           if InWindow(Touch(tx, s.dx, k), Touch(ty, s.dy, k))
           then Found(Touch(tx, s.dx, k), Touch(ty, s.dy, k)) else NotFound
  {
    WalkStopsAtLast(grid, tx, ty, s, probe);
    WalkReportsLast(grid, tx, ty, s, probe);
    forall j | 0 <= j < WalkSteps(grid, tx, ty, s, probe)
      ensures !Stops(grid, Touch(tx, s.dx, j), Touch(ty, s.dy, j), probe)
    {
      WalkPassesEarlier(grid, tx, ty, s, probe, j);
    }
  }

  /** (x, y) lies on the line through (px, py) of slope `t`. */
  predicate OnLine(x: real, y: real, px: real, py: real, t: real) {
    (x - px) * t == y - py
  }

  /** Consecutive touch points stay on the line through (px, py) of slope `t`
      when the first one and the step do. */
  lemma {:induction false} TouchOnLine(tx: real, ty: real, s: Step, px: real, py: real, t: real, k: nat)
    requires OnLine(tx, ty, px, py, t)
    requires s.dx * t == s.dy
    ensures OnLine(Touch(tx, s.dx, k), Touch(ty, s.dy, k), px, py, t)
  {
    if k > 0 {
      TouchOnLine(tx, ty, s, px, py, t, k - 1);
      var a := Touch(tx, s.dx, k - 1);
      var b := Touch(ty, s.dy, k - 1);
      assert Touch(tx, s.dx, k) == a + s.dx && Touch(ty, s.dy, k) == b + s.dy;
      OnLineStep(a, b, s, px, py, t);
    }
  }

  /** One step along the line's slope stays on the line. */
  lemma OnLineStep(x: real, y: real, s: Step, px: real, py: real, t: real)
    requires OnLine(x, y, px, py, t)
    requires s.dx * t == s.dy
    ensures OnLine(x + s.dx, y + s.dy, px, py, t)
  {
    assert (x + s.dx - px) * t == (x - px) * t + s.dx * t;
  }

  /** So the reported hit of such a walk lies on that line. */
  lemma WalkStaysOnLine(grid: Grid, tx: real, ty: real, s: Step, probe: Step, px: real, py: real, t: real)
    requires TileStride(s)
    requires OnLine(tx, ty, px, py, t)
    requires s.dx * t == s.dy
    ensures Walk(grid, tx, ty, s, probe).Found? ==>
              OnLine(Walk(grid, tx, ty, s, probe).x, Walk(grid, tx, ty, s, probe).y, px, py, t)
  {
    WalkReportsLast(grid, tx, ty, s, probe);
    TouchOnLine(tx, ty, s, px, py, t, WalkSteps(grid, tx, ty, s, probe));
  }

  /** A walk that advances a whole tile along y probes at most one point per
      horizontal grid line of the window, and likewise along x. */
  lemma WalkStepsBound(grid: Grid, tx: real, ty: real, s: Step, probe: Step)
    requires TileStride(s)
    ensures s.dy == TILE_SIZE || s.dy == -TILE_SIZE ==> WalkSteps(grid, tx, ty, s, probe) <= MAP_NUM_ROWS + 1
    ensures s.dx == TILE_SIZE || s.dx == -TILE_SIZE ==> WalkSteps(grid, tx, ty, s, probe) <= MAP_NUM_COLS + 1
  {
    if InWindow(tx, ty) {
      assert (WINDOW_HEIGHT - ty) / TILE_SIZE <= MAP_NUM_ROWS as real;
      assert ty / TILE_SIZE <= MAP_NUM_ROWS as real;
      assert (WINDOW_WIDTH - tx) / TILE_SIZE <= MAP_NUM_COLS as real;
      assert tx / TILE_SIZE <= MAP_NUM_COLS as real;
    }
  }

  /** The first horizontal grid line the ray meets: the one below the player's
      tile when facing down, the top of the player's tile when facing up. */
  function HorizontalFirstY(py: real, f: Facing): real {
    TileIndex(py) as real * TILE_SIZE + (if f.down then TILE_SIZE else 0.0)
  }

  /** Where the ray meets that line. */
  function HorizontalFirstX(px: real, py: real, f: Facing, t: real): real
    requires t != 0.0
  {
    px + (HorizontalFirstY(py, f) - py) / t
  }

  /** The cell probed beyond a horizontal line is the one above it when facing up. */
  function HorizontalProbe(f: Facing): Step {
    Step(0.0, if f.up then -1.0 else 0.0)
  }

  /** The horizontal-line search (raycast.js:109-143). With a zero tangent the
      program's first intercept is infinite or NaN and fails the window test at
      once, so nothing is found. */
  function HorizontalSearch(grid: Grid, px: real, py: real, f: Facing, t: real): (h: WallHit)
    requires f.down != f.up && f.right != f.left
    ensures t == 0.0 ==> h == NotFound
    ensures h.Found? ==> InWindow(h.x, h.y) && OnGridLine(h.y)
    ensures h.Found? ==> HasWallAt(grid, h.x, if f.up then h.y - 1.0 else h.y)
    ensures h.Found? ==> (f.down ==> py < h.y) && (f.up ==> h.y <= py)
  {
    if t == 0.0 then NotFound
    else
      var y0 := HorizontalFirstY(py, f);
      var x0 := HorizontalFirstX(px, py, f, t);
      assert OnGridLine(y0) by {
        assert TileIndex(y0) == TileIndex(py) + (if f.down then 1 else 0);
      }
      Walk(grid, x0, y0, HorizontalStep(f, t), HorizontalProbe(f))
  }

  /** The first vertical grid line the ray meets: right of the player's tile
      when facing right, the left side of the player's tile when facing left. */
  function VerticalFirstX(px: real, f: Facing): real {
    TileIndex(px) as real * TILE_SIZE + (if f.right then TILE_SIZE else 0.0)
  }

  /** Where the ray meets that line. */
  function VerticalFirstY(px: real, py: real, f: Facing, t: real): real {
    py + (VerticalFirstX(px, f) - px) * t
  }

  /** The cell probed beyond a vertical line is the one to its left when facing left. */
  function VerticalProbe(f: Facing): Step {
    Step(if f.left then -1.0 else 0.0, 0.0)
  }

  /** The vertical-line search (raycast.js:145-179). */
  function VerticalSearch(grid: Grid, px: real, py: real, f: Facing, t: real): (h: WallHit)
    requires f.down != f.up && f.right != f.left
    ensures h.Found? ==> InWindow(h.x, h.y) && OnGridLine(h.x)
    ensures h.Found? ==> HasWallAt(grid, if f.left then h.x - 1.0 else h.x, h.y)
    ensures h.Found? ==> (f.right ==> px < h.x) && (f.left ==> h.x <= px)
  {
    var x0 := VerticalFirstX(px, f);
    var y0 := VerticalFirstY(px, py, f, t);
    assert OnGridLine(x0) by {
      assert TileIndex(x0) == TileIndex(px) + (if f.right then 1 else 0);
    }
    Walk(grid, x0, y0, VerticalStep(f, t), VerticalProbe(f))
  }

  lemma HorizontalSearchIsWalk(grid: Grid, px: real, py: real, f: Facing, t: real)
    requires f.down != f.up && f.right != f.left
    requires t != 0.0
    ensures HorizontalSearch(grid, px, py, f, t) ==
      Walk(grid, HorizontalFirstX(px, py, f, t), HorizontalFirstY(py, f),
           HorizontalStep(f, t), HorizontalProbe(f))
  {
  }

  lemma VerticalSearchIsWalk(grid: Grid, px: real, py: real, f: Facing, t: real)
    requires f.down != f.up && f.right != f.left
    ensures VerticalSearch(grid, px, py, f, t) ==
      Walk(grid, VerticalFirstX(px, f), VerticalFirstY(px, py, f, t), VerticalStep(f, t), VerticalProbe(f))
  {
  }

  /** When the tangent agrees with the facing quadrant, the horizontal search
      reports a point of the ray's own line through the player. */
  lemma HorizontalHitOnRay(grid: Grid, px: real, py: real, f: Facing, t: real)
    requires f.down != f.up && f.right != f.left
    requires TanAgrees(f, t)
    ensures HorizontalSearch(grid, px, py, f, t).Found? ==>
      OnLine(HorizontalSearch(grid, px, py, f, t).x, HorizontalSearch(grid, px, py, f, t).y, px, py, t)
  {
    if t != 0.0 {
      HorizontalStepFollowsRay(f, t);
      var y0 := HorizontalFirstY(py, f);
      var x0 := HorizontalFirstX(px, py, f, t);
      assert ((y0 - py) / t) * t == y0 - py;
      assert OnLine(x0, y0, px, py, t);
      WalkStaysOnLine(grid, x0, y0, HorizontalStep(f, t), HorizontalProbe(f), px, py, t);
    }
  }

  /** Likewise for the vertical search. */
  lemma VerticalHitOnRay(grid: Grid, px: real, py: real, f: Facing, t: real)
    requires f.down != f.up && f.right != f.left
    requires TanAgrees(f, t)
    ensures VerticalSearch(grid, px, py, f, t).Found? ==>
      OnLine(VerticalSearch(grid, px, py, f, t).x, VerticalSearch(grid, px, py, f, t).y, px, py, t)
  {
    var x0 := VerticalFirstX(px, f);
    var y0 := VerticalFirstY(px, py, f, t);
    var st := VerticalStep(f, t);
    VerticalStepFollowsRay(f, t);
    assert TileStride(st) && st.dx * t == st.dy;
    assert OnLine(x0, y0, px, py, t);
    VerticalSearchIsWalk(grid, px, py, f, t);
    WalkStaysOnLine(grid, x0, y0, st, VerticalProbe(f), px, py, t);
  }

  /** A search the program cannot finish: from the open point (96, 608) of the
      reference map, a ray at angle atan 3 (about 1.249 radians, which has the
      facing flags of 1.25: down and right) has tangent 3 and first meets a
      vertical grid line at (128, 704), on the bottom edge of the window. The
      program's lookup there reads the missing row 11 and throws; the model's
      lookup reads a wall, so the search ends with that point. */
  lemma VerticalSearchReachesBottomEdge()
    ensures !HasWallAt(MAP, 96.0, 608.0)
    ensures Classify(1.25) == Facing(true, false, true, false)
    ensures VerticalFirstX(96.0, Classify(1.25)) == 128.0
    ensures VerticalFirstY(96.0, 608.0, Classify(1.25), 3.0) == WINDOW_HEIGHT
    ensures HasWallAtAsWritten(MAP, 128.0, WINDOW_HEIGHT).None?
    ensures VerticalSearch(MAP, 96.0, 608.0, Classify(1.25), 3.0) == Found(128.0, WINDOW_HEIGHT)
  {
    assert TileIndex(96.0) == 1 && TileIndex(608.0) == 9;
    assert TileIndex(WINDOW_HEIGHT) == 11;
  }
}
